=== FILE: README.md ===
# Image spider crawl engine, modelled in Dafny

This project models the crawl engine of `ImageSpider` in
`my_scrapy_module.py`. The engine is a keyword image crawler for Baidu's
image search. It covers:

- **URL extraction** (`extract_image_urls`): a search-result page is scanned
  for `"objURL":"…"` entries, and only the captures that start with `http`
  are kept. The model reproduces Python's `re.findall` semantics for this
  one pattern: leftmost, non-overlapping matches, each capture stopping at
  the first `"`, with scanning resuming after that quote. `ScanImageUrls`
  is a hand-written scanner proved equal to that definition.
- **Download with retry** (`download_image`): a URL without the `http`
  prefix is refused without a request. Any exception is retried while the
  budget lasts, whether it comes from the request or from writing the file.
  A status other than 200 answers `False` at once.
- **Save-directory policy** (`__init__`, `create_save_dir`): a non-empty
  custom path has its double quotes stripped. Otherwise the keyword has the
  characters `\ / : * ? " < > |` replaced by `_` and is joined under the
  save root, which defaults to `downloads` under the working directory.
  The directory is then created.
- **The crawl loop** (`crawl_images`): result pages are requested at
  offsets 0, 20, 40, …, and their candidates are downloaded in order to
  `{keyword}_{n}.jpg`. The crawl stops at the target count, at an absent or
  empty page, at a page without candidates, or after offset 1000.

The environment is an oracle record, `Crawler.Env`, with four parts:

- `page(url)`: what `get_html` returns, absent (`None`) or the body text;
- `fetch(url, n)`: the outcome of image request number `n` of the whole
  crawl (counted from 0), either an exception or a status with a body;
- `writable(path, n)`: whether the file can be opened and written after
  image request `n`;
- `makedirs(dir)`: whether `os.makedirs(dir, exist_ok=True)` succeeds.

Image requests are numbered across the whole crawl. Each `download_image`
call therefore sees the oracles from the first request number not yet used.
A URL requested again later, or a write tried again, may get a different
answer.

The crawl returns its count and directory. It also returns:

- the images saved, each with its path, its bytes and the progress that
  the callback receives;
- the log of every `download_image` call;
- the list of page offsets requested.

Modules, in dependency order:

- `Wrappers` (wrappers.dfy): the `Option` datatype for Python's `None`.
- `Strings` (strings.dfy): Python truthiness, `startswith`,
  decimal rendering, and the last path component.
- `Paths` (paths.dfy): POSIX `os.path.join`, keyword sanitising, quote
  stripping, and `create_save_dir`.
- `Extraction` (extraction.dfy): the `objURL` scanner.
- `Downloads` (downloads.dfy): `download_image`.
- `Crawler` (crawler.dfy): page URLs, file names, and the crawl loop.
- `CrawlScenarios` (scenarios.dfy): whole-crawl examples.

Behaviour of the code that a reader of its log messages or its interface
might not expect:

- **Request count.** The default `retry=3` (`my_scrapy_module.py:45`) is a
  number of retries: the message at `my_scrapy_module.py:61` numbers them
  `(1/3)`, `(2/3)`, `(3/3)`. With the first request they make up to
  **four** requests for one image (`Downloads.DefaultBudgetIsFourRequests`).
- **No retry on status.** A status other than 200 takes the `else` branch
  at `my_scrapy_module.py:57-58`, outside the `except` at
  `my_scrapy_module.py:59`. It returns `False` with no retry
  (`Downloads.NoRetryOnStatus`). Only exceptions are retried.
- **No cancellation.** The interface has a Stop button
  (`my_scrapy_module.py:225-232`). Its handler `stop_crawl` clears the flag
  `is_running` (`my_scrapy_module.py:328-330`). `crawl_images`
  (`my_scrapy_module.py:87-131`) never reads that flag. The only read is in
  `_run_crawl` (`my_scrapy_module.py:318`), after `crawl_images` has
  returned, and it only chooses whether to report completion. A running
  crawl goes on until one of its own stop conditions.
- **Raw keyword in file names.** The folder uses the sanitised keyword
  (`my_scrapy_module.py:80`). The file name uses the raw one
  (`my_scrapy_module.py:117`). For a keyword such as `a/b`, the save path of
  image 1 is `b_1.jpg` inside a sub-folder `a` of the save directory
  (`Crawler.RawKeywordLeavesSaveDir`). `create_save_dir` never creates that
  folder (`my_scrapy_module.py:84`). Unless it already exists, for instance
  inside a custom path, `open` at `my_scrapy_module.py:54` raises. The
  `except` at `my_scrapy_module.py:59-63` retries the request, and a call
  whose requests answer 200 returns `False` after four requests
  (`Downloads.UnwritablePathUsesBudget`). When no save path can be written,
  no image is saved (`Crawler.UnwritableSavesNothing`,
  `Crawler.UnwritableCrawlSavesNothing`). A call whose request answers
  another status still costs one request (`Downloads.NoRetryOnStatus`), and
  the crawl goes on to the next page while pages are present with
  candidates, up to offset 1000 (`Crawler.PagesStop`). The model keeps this
  behaviour as written.

## Model

| member | source | states |
|---|---|---|
| Extraction.ExtractImageUrlsSpec | my_scrapy_module.py:34-43 | `ExtractImageUrls` (`extract_image_urls`): No page gives no URLs. Every URL returned starts with `http`, contains no `"`, and occurs in the page as `"objURL":"<url>"`. The result holds exactly the `http` captures of the pattern, each as many times as the page holds it, in page order. |
| Extraction.ScanImageUrls | my_scrapy_module.py:34-43 | A single left-to-right scan finds the quote ending each capture, resumes after it, and keeps the `http` captures. Its output equals `HttpOnly(Captures(…))`, the leftmost non-overlapping `findall` semantics with the `http` filter. |
| Extraction.ScanStep | my_scrapy_module.py:40-43 | One step of the scanner keeps its invariant: it takes the capture of a match and resumes after the closing quote, or moves on by one character. |
| Extraction.FindQuote | my_scrapy_module.py:40 | The lazy `(.*?)` capture ends at the first `"` at or after the start, or at the end of the text when there is none. |
| Extraction.CapturesOfPage | my_scrapy_module.py:40 | `Captures` (`re.findall`): Round trip: a page made of `"objURL":"<u>"` entries for quote-free URLs yields exactly those URLs, in order. |
| Extraction.ExtractFromPage | my_scrapy_module.py:40-43 | On such a page, the extracted URLs are the listed ones that start with `http`. |
| Extraction.HttpOnlySpec | my_scrapy_module.py:43 | `HttpOnly` (the list comprehension): The filter keeps exactly the elements that start with `http`, each with its multiplicity, in their original order. |
| Extraction.HttpOnlyKeepsAll | my_scrapy_module.py:43 | A list whose elements all start with `http` passes the filter unchanged. |
| Extraction.CapturesQuoteFree | my_scrapy_module.py:40 | `Captures`: No capture contains a double quote. |
| Extraction.CapturesOccur | my_scrapy_module.py:40 | `Captures`: Every capture `c` occurs in the page as `"objURL":"` + `c` + `"`. |
| Extraction.PrefixNotScheme | my_scrapy_module.py:43 | The filter is a plain prefix test: `/rel.jpg` is dropped, and `httpfoo` (not a URL scheme) is kept. |
| Downloads.DownloadImage | my_scrapy_module.py:45-66 | A non-`http` URL gives `False` with no request. Otherwise the call makes 1 to `retry + 1` requests, and all but the last end in an exception. It answers `True` exactly when a file was written. The written bytes are the body of a 200 answer to the last request, for a writable path. |
| Downloads.DownloadFrom | my_scrapy_module.py:45-66 | The same bounds, for a call entered after `n` earlier requests of the recursion. |
| Downloads.DownloadLoop | my_scrapy_module.py:45-66 | A loop with an explicit retry counter gives the same result as the recursive definition. |
| Downloads.NoRetryOnStatus | my_scrapy_module.py:53-58 | A status other than 200 answers `False` after that one request, whatever budget is left. |
| Downloads.LastRequestDecides | my_scrapy_module.py:51-66 | The call succeeds exactly when its last request answered 200 without an exception. An exception on the last request means the whole budget was used. |
| Downloads.AlwaysRaisingUsesBudget | my_scrapy_module.py:51-66 | Requests that all end in the `except` branch use `retry + 1` requests and answer `False`. That covers a raised request, and a 200 answer whose file cannot be written. |
| Downloads.UnwritablePathUsesBudget | my_scrapy_module.py:51-66 | When every request answers 200 but the path can never be written, the call spends four requests and answers `False`. |
| Downloads.DefaultBudgetIsFourRequests | my_scrapy_module.py:45-63 | With the default `retry=3`, a URL that always raises is requested four times. |
| Downloads.TwoFailuresThenSuccess | my_scrapy_module.py:51-63 | Two exceptions and then a writable 200 answer give success on the third request. |
| Paths.JoinPlacesNameInDir | my_scrapy_module.py:81 | `Join` (`os.path.join`): Joining a `/`-free name under a directory gives a path that starts with the directory and whose last component is the name. At most one separator lies between them. |
| Paths.JoinNested | my_scrapy_module.py:117 | Joining a relative `x/y` under a directory equals joining `y` under its sub-folder `x`. |
| Paths.SanitizeSpec | my_scrapy_module.py:80 | `Sanitize` (`re.sub`): Sanitising keeps the length. It puts `_` at every reserved character and keeps every other character. |
| Paths.SanitizeClean | my_scrapy_module.py:80 | A sanitised keyword holds no reserved character, so no `/`. |
| Paths.SanitizeFixpoint | my_scrapy_module.py:80 | A keyword is unchanged by sanitising exactly when it holds no reserved character. |
| Paths.SanitizeIdempotent | my_scrapy_module.py:80 | Sanitising twice equals sanitising once. |
| Paths.StripQuotesSpec | my_scrapy_module.py:77 | `StripQuotes` (`replace('"', '')`): Stripping removes every `"`. It keeps every other character with its multiplicity, as a subsequence of the path. |
| Paths.StripQuotesIdentity | my_scrapy_module.py:77 | A path without `"` is unchanged. |
| Paths.StripQuotesIdempotent | my_scrapy_module.py:77 | Stripping twice equals stripping once. |
| Paths.SaveRoot | my_scrapy_module.py:19 | A non-empty `save_root` is used as given. Otherwise the root is the folder `downloads` directly under the working directory: it starts with that directory, ends in the component `downloads`, and has at most one separator in between. |
| Paths.SaveDirSpec | my_scrapy_module.py:75-81 | `SaveDir`: A custom path gives the path with every `"` removed: no quote is left, every other character keeps its multiplicity and order, and a quote-free path is kept as it is. Without one, the result is the folder named by the sanitised keyword directly under the save root, with at most one separator in between. |
| Paths.CreateSaveDir | my_scrapy_module.py:68-85 | Creation fails exactly when the chosen directory is empty or `os.makedirs` fails for it. Success returns that directory. |
| Paths.SanitizeExample | my_scrapy_module.py:80-81 | The keyword `a/b:c` gets the folder `a_b_c`. |
| Paths.AllQuotesPathFails | my_scrapy_module.py:75-84 | A custom path of only quotes strips to the empty path, so directory creation fails. |
| Strings.ParseNatToString | my_scrapy_module.py:117 | `NatToString` (`str` of an integer): The decimal rendering of offsets and image indices parses back to the number. |
| Strings.NatToStringInjective | my_scrapy_module.py:102 | Distinct numbers render to distinct decimal strings. |
| Strings.LastSegmentAfterSlash | my_scrapy_module.py:81 | After a directory ending in `/`, a `/`-free name is the last path component. |
| Crawler.PageUrlInjective | my_scrapy_module.py:102 | `PageUrl` (`base_url.format`): For one keyword, distinct offsets give distinct page URLs. |
| Crawler.FileNameInjective | my_scrapy_module.py:117 | `FileName`: Distinct image indices give distinct file names. |
| Crawler.FilePathInjective | my_scrapy_module.py:117 | `FilePath`: Distinct image indices give distinct save paths in one directory, so no image overwrites another. |
| Crawler.FilePathInSaveDir | my_scrapy_module.py:117 | For a `/`-free keyword, image `k` is the file `{keyword}_{k}.jpg` directly in the save directory, with at most one separator in between. |
| Crawler.RawKeywordLeavesSaveDir | my_scrapy_module.py:117 | The file name keeps the raw keyword. For `a/b`, the path of image 1 is `b_1.jpg` joined under the sub-folder `a` of the save directory. |
| Crawler.UnwritableSavesNothing | my_scrapy_module.py:113-124 | When no save path can ever be written, every call answers `False`. The candidate loop leaves the count and the saved images unchanged. |
| Crawler.UnwritableCrawlSavesNothing | my_scrapy_module.py:99-129 | The same holds for the whole page loop. |
| Crawler.CandidatesSpec | my_scrapy_module.py:113-124 | `Candidates` (the inner `for` loop): The candidate loop keeps the invariant. The count stays within the target. The saved images are indices `1..N` with progress `1..N`. Each call went to the next unused index below the target. |
| Crawler.CandidatesInOrder | my_scrapy_module.py:113-118 | The calls of one page go to a prefix of its candidates, in page order. |
| Crawler.CandidatesLeaveEarly | my_scrapy_module.py:113-115 | The loop leaves candidates untried only when the target has been reached. |
| Crawler.CandidatesExtend | my_scrapy_module.py:113-124 | The candidate loop only appends to the crawl's record and requests no page. |
| Crawler.VisitExtends | my_scrapy_module.py:102-124 | One pass of the page loop appends its offset and otherwise only appends. |
| Crawler.PagesSpec | my_scrapy_module.py:99-129 | `Pages` (the outer `while` loop): The page loop keeps the invariant. The offsets requested are `0, 20, 40, …`, none above 1000. |
| Crawler.PagesExtend | my_scrapy_module.py:99-129 | The page loop only appends to the crawl's record. |
| Crawler.PagesStop | my_scrapy_module.py:101-129 | The loop stops only at the target, or after a page that is absent, empty, without candidates, or at offset 1000. Conversely it stops at the target: entered below it, after every earlier candidate was called, it requests no page after the one whose call reached the target. |
| Crawler.PagesContinue | my_scrapy_module.py:105-129 | Every page before the last requested one was present and held candidates. |
| Crawler.OffsetCount | my_scrapy_module.py:126-129 | At most 51 pages are requested. |
| Crawler.RequestPage | my_scrapy_module.py:102-103 | Recording a page request keeps the invariant and the offset sequence. |
| Crawler.AllCandidatesPrefix | my_scrapy_module.py:99-108 | `AllCandidates` (the candidates of the requested pages, in request order): the candidates of the first `k` pages are a prefix of those of all pages. |
| Crawler.VisitFollowsCandidates | my_scrapy_module.py:102-124 | One pass of the page loop appends its offset. Its calls follow the earlier ones, and all of its candidates are called unless the target is reached. If the target is reached, a call of this page reached it. |
| Crawler.PagesTargetOnLastPage | my_scrapy_module.py:101-124 | The `while` test before each page: once the count reaches the target no page is requested, so the call that reached it belongs to the last page requested. |
| Crawler.CandidatesUrls | my_scrapy_module.py:113-118 | The URLs called by the candidate loop are a prefix of the page's candidates, all of them unless the target was reached. |
| Crawler.PagesFollowCandidates | my_scrapy_module.py:99-129 | The page loop calls, page by page in request order, every candidate of each page but the last and a prefix of the last page's candidates, and all of those unless the target was reached. |
| Crawler.CandidatesTraced | my_scrapy_module.py:113-124 | In the candidate loop every call gets the answer the oracles give after the calls before it, and every saved image was written by a call that answered `True`. |
| Crawler.PagesTraced | my_scrapy_module.py:99-129 | The same holds for the whole page loop. |
| Crawler.AnsweredCallFetched | my_scrapy_module.py:51-56 | A call of the crawl that answered `True` wrote the body of a 200 answer to its last request, and its path was writable after that request. |
| Crawler.SavedBodiesFetched | my_scrapy_module.py:52-55 | Every saved image holds the body of the 200 answer to the last request of a call to its path. |
| Crawler.CrawlImagesSpec | my_scrapy_module.py:87-131 | `CrawlImages` (`crawl_images`): No request is made when directory creation fails. Otherwise the directory is the one `create_save_dir` chose, and the count is between 0 and `max_count` (0 with no request when `max_count <= 0`). The saved images are `{keyword}_1.jpg … {keyword}_N.jpg` with progress `1…N`, and every call was in sequence. The offsets are `0, 20, …`, at most 51 of them. The crawl stops only at the target or after a last page, and with a positive target that was reached, the call that reached it belongs to the last page requested. The calls go, page by page in request order, to every candidate of each page but the last and to a prefix of the last page's candidates, all of them unless the target was reached. Each call's answer is what the oracles give it after the requests of the calls before it. Every saved image was written by a call to its path and holds the body of the 200 answer to that call's last request. |
| CrawlScenarios.FirstRequestSucceeds | my_scrapy_module.py:51-56 | A writable 200 answer to the first request gives success after one request. |
| CrawlScenarios.CandidatesAllSucceed | my_scrapy_module.py:113-124 | When every download succeeds, a page adds `min(candidates, remaining target)` images. |
| CrawlScenarios.RepeatedUrlCanSucceed | my_scrapy_module.py:113-119 | A URL listed twice can fail on its first call, after four raised requests, and be saved on its second. |
| CrawlScenarios.CandidatesOfPage | my_scrapy_module.py:103-108 | A page of quote-free `http` entries yields those entries as candidates. |
| CrawlScenarios.TwoPagesOfThree | my_scrapy_module.py:101-129 | Target 5 with pages of three successful candidates saves 5 images and requests offsets 0 and 20. |
| CrawlScenarios.CatsFolder | my_scrapy_module.py:75-84 | Keyword `cats` without a custom path gives the folder `cats` under the root. |
| CrawlScenarios.FiveCats | my_scrapy_module.py:87-131 | Crawling `cats` with target 5 ends with 5 images in `cats` under the root, after requesting offsets 0 and 20. |
| CrawlScenarios.AbsentSecondPage | my_scrapy_module.py:103-106 | When the second page is absent, the crawl keeps what the first page brought and requests at most two pages. |
| CrawlScenarios.FirstPageIsTried | my_scrapy_module.py:99-118 | From the whole-crawl contract alone: with a positive target and candidates on the first page, the crawl makes at least one download call. |

## Left out

- The graphical interface (`ImageSpiderGUI`, `my_scrapy_module.py:134-338`), its threads and its `is_running` flag are not modelled.
- HTTP transport is not modelled: headers, timeouts, text decoding and `get_html`'s status handling (`my_scrapy_module.py:21-32`). `get_html` is the oracle `Env.page`, and a page that failed counts as `None`.
- Image requests and file writes are the oracles `Env.fetch` and `Env.writable`, numbered by request across the crawl. Their answers are fixed in advance: they may depend on the URL, the path and the request number, but not on timing.
- `sleep_time` is not a parameter and is taken to be non-negative. A negative value makes `time.sleep(sleep_time)` at `my_scrapy_module.py:124` raise `ValueError` right after the first saved image, and that exception ends `crawl_images`. The model always returns normally.
- The fixed one-second retry pause (`my_scrapy_module.py:62`) and all `print` output do not change results and are not modelled.
- The callback is not called. Each saved image records the `(count, max_count, save_dir)` triple the callback would receive, whether or not a callback was given.
- A write that fails part-way may leave a partial file on disk. The model records only completed writes.
- Path joining follows POSIX `posixpath.join`. Windows drive letters and `\` separators are not modelled.
- `os.makedirs` is the oracle `Env.makedirs`. Only its failure on the empty path, where `os.mkdir('')` raises `FileNotFoundError`, is fixed by the model.
- General regular expressions are not modelled. Only the one pattern `"objURL":"(.*?)"` with `re.S` is.
- Python `str` is modelled as a sequence of characters. Unicode code points versus UTF-16 units and text decoding are not modelled.

=== FILE: crawler.dfy ===
/** The crawl loop (`ImageSpider.crawl_images`): fetch result pages at
    offsets 0, 20, 40, ..., extract candidate URLs from each, download them
    in order under sequential file names, and stop when the target count is
    reached, a page is absent or empty, a page has no candidates, or the
    offset passes 1000. Page fetches (`get_html`), image requests, file
    writes and `os.makedirs` are oracles gathered in an `Env`. */
module Crawler {
  import opened Wrappers
  import opened Strings
  import opened Paths
  import opened Extraction
  import opened Downloads

  /** `base_url` up to the keyword placeholder. */
  const BaseUrlHead: string := "https://image.baidu.com/search/flip?tn=baiduimage&ie=utf-8&word="

  /** The text between the keyword and the offset in `base_url`. */
  const OffsetParam: string := "&pn="

  /** How far the offset moves after each page. */
  const PageStep: nat := 20

  /** The largest offset that is still requested. */
  const MaxOffset: nat := 1000

  /** `base_url.format(keyword, page_num)`: the keyword is inserted as it is,
      the offset in decimal. */
  function PageUrl(keyword: string, offset: nat): string
  {
    BaseUrlHead + keyword + OffsetParam + NatToString(offset)
  }

  /** For one keyword, the page URL determines the offset. */
  lemma PageUrlInjective(keyword: string, a: nat, b: nat)
    requires PageUrl(keyword, a) == PageUrl(keyword, b)
    ensures a == b
  {
    var h := BaseUrlHead + keyword + OffsetParam;
    assert PageUrl(keyword, a)[|h|..] == NatToString(a);
    assert PageUrl(keyword, b)[|h|..] == NatToString(b);
    NatToStringInjective(a, b);
  }

  /** `f"{keyword}_{k}.jpg"`: the raw keyword, not the sanitised one. */
  function FileName(keyword: string, k: nat): string
  {
    keyword + "_" + NatToString(k) + ".jpg"
  }

  /** The save path of the `k`-th image. */
  function FilePath(saveDir: string, keyword: string, k: nat): string
  {
    Join(saveDir, FileName(keyword, k))
  }

  /** Different indices give different file names. */
  lemma FileNameInjective(keyword: string, a: nat, b: nat)
    requires FileName(keyword, a) == FileName(keyword, b)
    ensures a == b
  {
    var x := FileName(keyword, a);
    var y := FileName(keyword, b);
    var h := |keyword| + 1;
    assert |x| == |y|;
    assert x[h..|x| - 4] == NatToString(a);
    assert y[h..|y| - 4] == NatToString(b);
    NatToStringInjective(a, b);
  }

  /** Different indices give different save paths, so no image of one crawl
      overwrites another. */
  lemma FilePathInjective(saveDir: string, keyword: string, a: nat, b: nat)
    requires FilePath(saveDir, keyword, a) == FilePath(saveDir, keyword, b)
    ensures a == b
  {
    var x := FileName(keyword, a);
    var y := FileName(keyword, b);
    assert StartsWith(x, "/") <==> StartsWith(keyword, "/") by {
      if keyword == [] {
        assert x[0] == '_';
      } else {
        assert x[0] == keyword[0];
      }
    }
    assert StartsWith(y, "/") <==> StartsWith(keyword, "/") by {
      if keyword == [] {
        assert y[0] == '_';
      } else {
        assert y[0] == keyword[0];
      }
    }
    if StartsWith(keyword, "/") {
    } else if saveDir == [] || saveDir[|saveDir| - 1] == '/' {
      assert x == (saveDir + x)[|saveDir|..];
      assert y == (saveDir + y)[|saveDir|..];
    } else {
      assert x == (saveDir + "/" + x)[|saveDir| + 1..];
      assert y == (saveDir + "/" + y)[|saveDir| + 1..];
    }
    FileNameInjective(keyword, a, b);
  }

  /** For a keyword without `/`, the `k`-th image is a file directly in
      the save directory, named `{keyword}_{k}.jpg`. */
  lemma FilePathInSaveDir(saveDir: string, keyword: string, k: nat)
    requires '/' !in keyword
    ensures StartsWith(FilePath(saveDir, keyword, k), saveDir)
    ensures LastSegment(FilePath(saveDir, keyword, k)) == FileName(keyword, k)
    ensures |FilePath(saveDir, keyword, k)| <= |saveDir| + 1 + |FileName(keyword, k)|
  {
    var f := FileName(keyword, k);
    assert '/' !in f by {
      assert f == keyword + ("_" + NatToString(k) + ".jpg");
      assert forall i :: 0 <= i < |NatToString(k)| ==> IsDigit(NatToString(k)[i]);
      forall i | 0 <= i < |f|
        ensures f[i] != '/'
      {
        if i < |keyword| {
          assert f[i] == keyword[i];
          assert keyword[i] in keyword;
        }
      }
    }
    JoinPlacesNameInDir(saveDir, f);
  }

  /** The file name keeps the raw keyword: for `a/b` the first image's path
      is `b_1.jpg` inside a sub-folder `a` of the save directory, a folder
      `create_save_dir` never creates. */
  lemma RawKeywordLeavesSaveDir(saveDir: string)
    ensures FilePath(saveDir, "a/b", 1) == Join(Join(saveDir, "a"), "b_1.jpg")
    ensures LastSegment(FilePath(saveDir, "a/b", 1)) == "b_1.jpg"
  {
    assert NatToString(1) == "1";
    assert FileName("a/b", 1) == "a" + "/" + "b_1.jpg";
    assert !StartsWith("b_1.jpg", "/") by {
      assert "b_1.jpg"[..1][0] == 'b';
    }
    JoinNested(saveDir, "a", "b_1.jpg");
    var dir := Join(saveDir, "a");
    assert dir != [] && dir[|dir| - 1] == 'a' by {
      if saveDir == [] || saveDir[|saveDir| - 1] == '/' {
        assert dir == saveDir + "a";
      } else {
        assert dir == saveDir + "/" + "a";
      }
    }
    assert Join(dir, "b_1.jpg") == (dir + "/") + "b_1.jpg";
    LastSegmentAfterSlash(dir + "/", "b_1.jpg");
  }

  /** The effects the crawl depends on: `page(url)` is what `get_html(url)`
      returns; `fetch(url, n)` is the outcome of the image request numbered
      `n` across the whole crawl (from 0), and `writable(path, n)` whether
      the file can be opened and written after that request; `makedirs(dir)`
      is whether `os.makedirs(dir, exist_ok=True)` succeeds. Because image
      requests are numbered crawl-wide, a URL requested again, or a write
      tried again, may get a different answer. */
  datatype Env = Env(page: string -> Option<string>,
                     fetch: (string, nat) -> FetchOutcome,
                     writable: (string, nat) -> bool,
                     makedirs: string -> bool)

  /** The arguments of one `callback(total_count, max_count, save_dir)` call. */
  datatype Progress = Progress(current: nat, target: int, saveDir: string)

  /** One saved image: its path, its bytes and the progress event that
      followed it. */
  datatype Saved = Saved(path: string, content: seq<Byte>, progress: Progress)

  /** One `download_image` call of the crawl. */
  datatype Attempt = Attempt(url: string, path: string, result: Download)

  /** What a crawl has done so far: the count, the images saved, the
      download calls made and the page offsets requested. */
  datatype State = State(total: nat, saved: seq<Saved>, attempts: seq<Attempt>, offsets: seq<nat>)

  /** The fixed parameters of one crawl. */
  datatype Job = Job(keyword: string, maxCount: int, saveDir: string)

  /** The outcome of `crawl_images`: the returned `(total_count, save_dir)`
      with the recorded effects, or the error `create_save_dir` raised
      before any request. */
  datatype CrawlResult =
    | Crawled(total: nat, saveDir: string, saved: seq<Saved>, attempts: seq<Attempt>, offsets: seq<nat>)
    | NotStarted(error: FsError)

  /** The state before the first page. */
  const Start: State := State(0, [], [], [])

  /** The number of download calls that answered `True`. */
  function OkCount(attempts: seq<Attempt>): nat
    decreases |attempts|
  {
    if attempts == [] then 0
    else OkCount(attempts[..|attempts| - 1]) + (if attempts[|attempts| - 1].result.ok then 1 else 0)
  }

  /** The number of image requests the download calls issued. */
  function Requests(attempts: seq<Attempt>): nat
    decreases |attempts|
  {
    if attempts == [] then 0
    else Requests(attempts[..|attempts| - 1]) + attempts[|attempts| - 1].result.requests
  }

  /** The request oracle as one `download_image` call sees it: its request
      `k` is request `base + k` of the crawl. */
  function FetchFrom(env: Env, base: nat): (string, nat) -> FetchOutcome
  {
    (u: string, k: nat) => env.fetch(u, base + k)
  }

  /** The write oracle as one `download_image` call sees it. */
  function WritableFrom(env: Env, base: nat): (string, nat) -> bool
  {
    (p: string, k: nat) => env.writable(p, base + k)
  }

  /** The next `download_image(url, path)` call of the crawl, issued after
      the requests of the calls `done` already made. */
  function DownloadCall(env: Env, done: seq<Attempt>, url: string, path: string): Download
  {
    var base := Requests(done);
    DownloadImage(url, path, DefaultRetry, FetchFrom(env, base), WritableFrom(env, base))
  }

  /** The state after one `download_image(url, path)` call answered `d`:
      on `True` the count goes up, the image is saved and the callback gets
      the new count. */
  function AfterCall(job: Job, st: State, url: string, path: string, d: Download): State
    requires d.ok ==> d.written.Some?
  {
    var attempts := st.attempts + [Attempt(url, path, d)];
    if d.ok then
      State(st.total + 1,
            st.saved + [Saved(path, d.written.value, Progress(st.total + 1, job.maxCount, job.saveDir))],
            attempts, st.offsets)
    else st.(attempts := attempts)
  }

  /** One pass of the inner loop body: download `url` to the path of the
      next index and record the call. */
  function Step(job: Job, env: Env, st: State, url: string): State
  {
    var path := FilePath(job.saveDir, job.keyword, st.total + 1);
    AfterCall(job, st, url, path, DownloadCall(env, st.attempts, url, path))
  }

  /** The inner `for` loop over one page's candidates. */
  function Candidates(job: Job, env: Env, urls: seq<string>, st: State): State
    decreases |urls|
  {
    if urls == [] || st.total >= job.maxCount then st
    else Candidates(job, env, urls[1..], Step(job, env, st, urls[0]))
  }

  /** The outer `while` loop, entered with `page_num == pageNum`. */
  function Pages(job: Job, env: Env, pageNum: nat, st: State): State
    requires pageNum <= MaxOffset
    decreases MaxOffset - pageNum
  {
    if st.total >= job.maxCount then st
    else
      var html := env.page(PageUrl(job.keyword, pageNum));
      var requested := st.(offsets := st.offsets + [pageNum]);
      if !Truthy(html) then requested
      else
        var urls := ExtractImageUrls(html);
        if urls == [] then requested
        else
          var done := Candidates(job, env, urls, requested);
          if pageNum + PageStep > MaxOffset then done
          else Pages(job, env, pageNum + PageStep, done)
  }

  /** `crawl_images(keyword, max_count, sleep_time, custom_path, callback)`
      of a spider whose save root is `saveRoot`. */
  function CrawlImages(saveRoot: string, keyword: string, maxCount: int,
                       customPath: Option<string>, env: Env): CrawlResult
  {
    match CreateSaveDir(saveRoot, keyword, customPath, env.makedirs)
    case DirFailed(e) => NotStarted(e)
    case DirCreated(dir) =>
      var st := Pages(Job(keyword, maxCount, dir), env, 0, Start);
      Crawled(st.total, dir, st.saved, st.attempts, st.offsets)
  }

  /** The count never passes the target (and stays 0 for a target of 0 or less). */
  predicate Bounded(total: nat, maxCount: int)
  {
    total == 0 || total <= maxCount
  }

  /** The `i`-th saved image (from 0) is `{keyword}_{i+1}.jpg`, reported
      as progress `(i + 1, max_count, save_dir)`. */
  ghost predicate SavedInSequence(job: Job, saved: seq<Saved>)
  {
    forall i :: 0 <= i < |saved| ==>
      && saved[i].path == FilePath(job.saveDir, job.keyword, i + 1)
      && saved[i].progress == Progress(i + 1, job.maxCount, job.saveDir)
  }

  /** Download call `j` was made while the count was below the target, to
      the path of the next index; if it answered `True`, it saved its bytes
      as the next image. */
  ghost predicate AttemptInSequence(job: Job, saved: seq<Saved>, attempts: seq<Attempt>, j: nat)
    requires j < |attempts|
  {
    var before := OkCount(attempts[..j]);
    && before < job.maxCount
    && attempts[j].path == FilePath(job.saveDir, job.keyword, before + 1)
    && (attempts[j].result.ok ==>
          before < |saved| &&
          saved[before].path == attempts[j].path &&
          Some(saved[before].content) == attempts[j].result.written)
  }

  /** Every download call is in sequence. */
  ghost predicate AttemptsInSequence(job: Job, saved: seq<Saved>, attempts: seq<Attempt>)
  {
    forall j :: 0 <= j < |attempts| ==> AttemptInSequence(job, saved, attempts, j)
  }

  /** The invariant of both loops. */
  ghost predicate Inv(job: Job, st: State)
  {
    && Bounded(st.total, job.maxCount)
    && |st.saved| == st.total
    && OkCount(st.attempts) == st.total
    && SavedInSequence(job, st.saved)
    && AttemptsInSequence(job, st.saved, st.attempts)
  }

  /** Page offsets are `0, 20, 40, ...` in request order. */
  ghost predicate OffsetsInSequence(offsets: seq<nat>)
  {
    forall i :: 0 <= i < |offsets| ==> offsets[i] == PageStep * i
  }

  /** `b` extends `a`: the crawl only ever appends to what it has done. */
  ghost predicate Extends(a: State, b: State)
  {
    && a.total <= b.total
    && a.saved <= b.saved
    && a.attempts <= b.attempts
    && a.offsets <= b.offsets
  }

  /** Appending a call to the log: the count of successes grows by one
      exactly when the call answered `True`, and earlier prefixes are kept. */
  lemma OkCountAppend(attempts: seq<Attempt>, a: Attempt)
    ensures OkCount(attempts + [a]) == OkCount(attempts) + (if a.result.ok then 1 else 0)
    ensures forall j :: 0 <= j <= |attempts| ==> (attempts + [a])[..j] == attempts[..j]
  {
    assert (attempts + [a])[..|attempts|] == attempts;
  }

  /** A call to the next path made below the target keeps the call log in
      sequence, whether it succeeds or not. */
  lemma AttemptsStep(job: Job, saved: seq<Saved>, attempts: seq<Attempt>, a: Attempt, saved': seq<Saved>)
    requires AttemptsInSequence(job, saved, attempts)
    requires OkCount(attempts) == |saved|
    requires |saved| < job.maxCount
    requires a.path == FilePath(job.saveDir, job.keyword, |saved| + 1)
    requires saved <= saved'
    requires a.result.ok ==> |saved'| == |saved| + 1
    requires a.result.ok ==> saved'[|saved|].path == a.path && Some(saved'[|saved|].content) == a.result.written
    ensures AttemptsInSequence(job, saved', attempts + [a])
  {
    var all := attempts + [a];
    forall j | 0 <= j < |attempts|
      ensures AttemptInSequence(job, saved', all, j)
    {
      EarlierAttemptStays(job, saved, attempts, a, saved', j);
    }
    assert all[..|attempts|] == attempts;
    assert AttemptInSequence(job, saved', all, |attempts|);
  }

  /** An earlier call stays in sequence when the logs grow. */
  lemma EarlierAttemptStays(job: Job, saved: seq<Saved>, attempts: seq<Attempt>, a: Attempt, saved': seq<Saved>, j: nat)
    requires j < |attempts|
    requires AttemptInSequence(job, saved, attempts, j)
    requires saved <= saved'
    ensures AttemptInSequence(job, saved', attempts + [a], j)
  {
    var all := attempts + [a];
    assert all[..j] == attempts[..j];
    assert all[j] == attempts[j];
    var before := OkCount(attempts[..j]);
    if attempts[j].result.ok {
      assert saved'[before] == saved[before];
    }
  }

  /** Saving the next image with its progress event keeps the saved list in sequence. */
  lemma SavedStep(job: Job, saved: seq<Saved>, s: Saved)
    requires SavedInSequence(job, saved)
    requires s.path == FilePath(job.saveDir, job.keyword, |saved| + 1)
    requires s.progress == Progress(|saved| + 1, job.maxCount, job.saveDir)
    ensures SavedInSequence(job, saved + [s])
  {
    forall i | 0 <= i < |saved|
      ensures (saved + [s])[i] == saved[i]
    {
    }
  }

  /** One more download call, with its effect on the state. */
  lemma AttemptStep(job: Job, st: State, a: Attempt, next: State)
    requires Inv(job, st)
    requires st.total < job.maxCount
    requires a.path == FilePath(job.saveDir, job.keyword, st.total + 1)
    requires a.result.ok <==> a.result.written.Some?
    requires next.attempts == st.attempts + [a] && next.offsets == st.offsets
    requires a.result.ok ==> next.total == st.total + 1
    requires a.result.ok ==>
               next.saved == st.saved + [Saved(a.path, a.result.written.value, Progress(st.total + 1, job.maxCount, job.saveDir))]
    requires !a.result.ok ==> next.total == st.total && next.saved == st.saved
    ensures Inv(job, next) && Extends(st, next)
  {
    OkCountAppend(st.attempts, a);
    AttemptsStep(job, st.saved, st.attempts, a, next.saved);
    if a.result.ok {
      SavedStep(job, st.saved, next.saved[|st.saved|]);
      assert next.saved == st.saved + [next.saved[|st.saved|]];
    }
  }

  /** The candidate loop keeps the invariant. */
  lemma {:induction false} CandidatesSpec(job: Job, env: Env, urls: seq<string>, st: State)
    requires Inv(job, st)
    ensures Inv(job, Candidates(job, env, urls, st))
    decreases |urls|
  {
    if urls != [] && st.total < job.maxCount {
      var path := FilePath(job.saveDir, job.keyword, st.total + 1);
      var d := DownloadCall(env, st.attempts, urls[0], path);
      var next := Step(job, env, st, urls[0]);
      AttemptStep(job, st, Attempt(urls[0], path, d), next);
      CandidatesSpec(job, env, urls[1..], next);
    }
  }

  /** The calls logged from position `from` on went to a prefix of `urls`,
      in order. */
  ghost predicate TriedInOrder(attempts: seq<Attempt>, from: nat, urls: seq<string>)
  {
    && from <= |attempts| <= from + |urls|
    && forall j :: from <= j < |attempts| ==> attempts[j].url == urls[j - from]
  }

  /** One pass of the inner loop logs exactly one call, to its candidate. */
  lemma StepAppends(job: Job, env: Env, st: State, u: string)
    ensures var next := Step(job, env, st, u);
      |next.attempts| == |st.attempts| + 1 && next.attempts[|st.attempts|].url == u
  {
  }

  /** A call to the first candidate logged at `from`, followed by calls to
      a prefix of the other candidates, is a run of calls to a prefix of
      all of them. */
  lemma TriedInOrderCons(attempts: seq<Attempt>, from: nat, next: seq<Attempt>, urls: seq<string>)
    requires urls != []
    requires |next| == from + 1 && next[from].url == urls[0] && next <= attempts
    requires TriedInOrder(attempts, from + 1, urls[1..])
    ensures TriedInOrder(attempts, from, urls)
  {
    forall j | from < j < |attempts|
      ensures attempts[j].url == urls[j - from]
    {
      assert attempts[j].url == urls[1..][j - (from + 1)];
    }
  }

  /** The candidate loop downloads the candidates in page order. */
  lemma {:induction false} CandidatesInOrder(job: Job, env: Env, urls: seq<string>, st: State)
    ensures TriedInOrder(Candidates(job, env, urls, st).attempts, |st.attempts|, urls)
    decreases |urls|
  {
    if urls != [] && st.total < job.maxCount {
      var next := Step(job, env, st, urls[0]);
      StepAppends(job, env, st, urls[0]);
      CandidatesInOrder(job, env, urls[1..], next);
      CandidatesKeepLog(job, env, urls[1..], next);
      TriedInOrderCons(Candidates(job, env, urls[1..], next).attempts, |st.attempts|, next.attempts, urls);
    }
  }

  /** The candidate loop leaves candidates of a page untried only when the
      target has been reached. */
  lemma {:induction false} CandidatesLeaveEarly(job: Job, env: Env, urls: seq<string>, st: State)
    ensures var r := Candidates(job, env, urls, st);
      |r.attempts| < |st.attempts| + |urls| ==> r.total >= job.maxCount
    decreases |urls|
  {
    if urls != [] && st.total < job.maxCount {
      StepAppends(job, env, st, urls[0]);
      CandidatesLeaveEarly(job, env, urls[1..], Step(job, env, st, urls[0]));
    }
  }

  /** The page has to be fetched and holds candidates; otherwise the crawl
      stops after requesting it, as it does after the page at offset 1000. */
  predicate LastPage(job: Job, env: Env, offset: nat)
  {
    var html := env.page(PageUrl(job.keyword, offset));
    !Truthy(html) || ExtractImageUrls(html) == [] || offset + PageStep > MaxOffset
  }

  /** Every requested offset is at most 1000. */
  ghost predicate OffsetsCapped(offsets: seq<nat>)
  {
    forall i :: 0 <= i < |offsets| ==> offsets[i] <= MaxOffset
  }

  /** One pass of the outer loop body: request the page at `pageNum` and
      download its candidates (there are none when the page is absent or
      empty). */
  function Visit(job: Job, env: Env, pageNum: nat, st: State): State
  {
    var html := env.page(PageUrl(job.keyword, pageNum));
    Candidates(job, env, ExtractImageUrls(html), st.(offsets := st.offsets + [pageNum]))
  }

  /** The outer loop is: visit a page, then stop after a last page or go on
      with the next offset. */
  lemma PagesUnfold(job: Job, env: Env, pageNum: nat, st: State)
    requires pageNum <= MaxOffset
    requires st.total < job.maxCount
    ensures Pages(job, env, pageNum, st) ==
      if LastPage(job, env, pageNum) then Visit(job, env, pageNum, st)
      else Pages(job, env, pageNum + PageStep, Visit(job, env, pageNum, st))
  {
  }

  /** The page loop keeps the invariant and requests the offsets
      `0, 20, ...` in sequence, none above 1000. */
  lemma {:induction false} PagesSpec(job: Job, env: Env, pageNum: nat, st: State)
    requires pageNum <= MaxOffset
    requires pageNum == PageStep * |st.offsets|
    requires Inv(job, st) && OffsetsInSequence(st.offsets) && OffsetsCapped(st.offsets)
    ensures var r := Pages(job, env, pageNum, st);
      && Inv(job, r)
      && OffsetsInSequence(r.offsets)
      && OffsetsCapped(r.offsets)
    decreases MaxOffset - pageNum
  {
    if st.total < job.maxCount {
      PagesUnfold(job, env, pageNum, st);
      var requested := st.(offsets := st.offsets + [pageNum]);
      RequestPage(job, st, pageNum);
      var urls := ExtractImageUrls(env.page(PageUrl(job.keyword, pageNum)));
      CandidatesSpec(job, env, urls, requested);
      CandidatesExtend(job, env, urls, requested);
      if !LastPage(job, env, pageNum) {
        PagesSpec(job, env, pageNum + PageStep, Visit(job, env, pageNum, st));
      }
    }
  }

  /** The candidate loop only appends to what the crawl has done and
      requests no page. */
  lemma {:induction false} CandidatesExtend(job: Job, env: Env, urls: seq<string>, st: State)
    ensures Extends(st, Candidates(job, env, urls, st))
    ensures Candidates(job, env, urls, st).offsets == st.offsets
    decreases |urls|
  {
    if urls != [] && st.total < job.maxCount {
      CandidatesExtend(job, env, urls[1..], Step(job, env, st, urls[0]));
    }
  }

  /** The candidate loop keeps the calls already logged. */
  lemma CandidatesKeepLog(job: Job, env: Env, urls: seq<string>, st: State)
    ensures st.attempts <= Candidates(job, env, urls, st).attempts
  {
    CandidatesExtend(job, env, urls, st);
  }

  /** Visiting a page appends its offset and only appends otherwise. */
  lemma VisitExtends(job: Job, env: Env, pageNum: nat, st: State)
    ensures Extends(st, Visit(job, env, pageNum, st))
    ensures Visit(job, env, pageNum, st).offsets == st.offsets + [pageNum]
  {
    var requested := st.(offsets := st.offsets + [pageNum]);
    CandidatesExtend(job, env, ExtractImageUrls(env.page(PageUrl(job.keyword, pageNum))), requested);
  }

  /** The page loop only appends to what the crawl has done. */
  lemma {:induction false} PagesExtend(job: Job, env: Env, pageNum: nat, st: State)
    requires pageNum <= MaxOffset
    ensures Extends(st, Pages(job, env, pageNum, st))
    decreases MaxOffset - pageNum
  {
    if st.total < job.maxCount {
      PagesUnfold(job, env, pageNum, st);
      VisitExtends(job, env, pageNum, st);
      if !LastPage(job, env, pageNum) {
        PagesExtend(job, env, pageNum + PageStep, Visit(job, env, pageNum, st));
      }
    }
  }

  /** `r` stopped at the target, or after requesting at least one page
      beyond those of `from`, the last of which is a last page. */
  ghost predicate StoppedProperly(job: Job, env: Env, from: State, r: State)
  {
    r.total >= job.maxCount || (|r.offsets| > |from.offsets| && LastPage(job, env, r.offsets[|r.offsets| - 1]))
  }

  /** A proper stop after a later state is a proper stop after an earlier one. */
  lemma StoppedProperlyEarlier(job: Job, env: Env, a: State, b: State, r: State)
    requires |a.offsets| <= |b.offsets|
    requires StoppedProperly(job, env, b, r)
    ensures StoppedProperly(job, env, a, r)
  {
  }

  /** The page loop stops only at the target or right after a last page;
      and it stops at the target: entered below it after every earlier
      candidate was called, it requests no page after the one whose call
      reached the target. */
  lemma {:induction false} PagesStop(job: Job, env: Env, pageNum: nat, st: State)
    requires pageNum <= MaxOffset
    ensures StoppedProperly(job, env, st, Pages(job, env, pageNum, st))
    ensures var r := Pages(job, env, pageNum, st);
      Urls(st.attempts) == AllCandidates(job, env, st.offsets) && st.total < job.maxCount <= r.total ==>
        r.offsets != [] && |AllCandidates(job, env, r.offsets[..|r.offsets| - 1])| < |r.attempts|
    decreases MaxOffset - pageNum
  {
    if Urls(st.attempts) == AllCandidates(job, env, st.offsets) {
      PagesTargetOnLastPage(job, env, pageNum, st);
    }
    if st.total < job.maxCount {
      PagesUnfold(job, env, pageNum, st);
      VisitExtends(job, env, pageNum, st);
      var done := Visit(job, env, pageNum, st);
      if !LastPage(job, env, pageNum) {
        PagesStop(job, env, pageNum + PageStep, done);
        StoppedProperlyEarlier(job, env, st, done, Pages(job, env, pageNum + PageStep, done));
      }
    }
  }

  /** Every page requested before the last one was present and held
      candidates. */
  lemma {:induction false} PagesContinue(job: Job, env: Env, pageNum: nat, st: State)
    requires pageNum <= MaxOffset
    ensures var r := Pages(job, env, pageNum, st);
      forall i :: |st.offsets| <= i < |r.offsets| - 1 ==> !LastPage(job, env, r.offsets[i])
    decreases MaxOffset - pageNum
  {
    if st.total < job.maxCount {
      PagesUnfold(job, env, pageNum, st);
      VisitExtends(job, env, pageNum, st);
      if !LastPage(job, env, pageNum) {
        var done := Visit(job, env, pageNum, st);
        PagesExtend(job, env, pageNum + PageStep, done);
        PagesContinue(job, env, pageNum + PageStep, done);
        var r := Pages(job, env, pageNum + PageStep, done);
        assert r.offsets[|st.offsets|] == pageNum by {
          assert done.offsets <= r.offsets;
        }
      }
    }
  }

  /** Recording one more page request keeps the loop invariant and the offset sequence. */
  lemma RequestPage(job: Job, st: State, pageNum: nat)
    requires pageNum == PageStep * |st.offsets|
    requires pageNum <= MaxOffset
    requires Inv(job, st) && OffsetsInSequence(st.offsets) && OffsetsCapped(st.offsets)
    ensures Inv(job, st.(offsets := st.offsets + [pageNum]))
    ensures OffsetsInSequence(st.offsets + [pageNum])
    ensures OffsetsCapped(st.offsets + [pageNum])
    ensures Extends(st, st.(offsets := st.offsets + [pageNum]))
  {
  }

  /** At most 51 pages are requested: offsets 0 to 1000 in steps of 20. */
  lemma OffsetCount(offsets: seq<nat>)
    requires OffsetsInSequence(offsets) && OffsetsCapped(offsets)
    ensures |offsets| <= MaxOffset / PageStep + 1
  {
    if offsets != [] {
      var last := |offsets| - 1;
      assert PageStep * last == offsets[last] <= MaxOffset;
    }
  }

  /** Appending a call to the log adds its requests to the crawl's count. */
  lemma RequestsAppend(attempts: seq<Attempt>, a: Attempt)
    ensures Requests(attempts + [a]) == Requests(attempts) + a.result.requests
  {
    assert (attempts + [a])[..|attempts|] == attempts;
  }

  /** When no save path can ever be written, as when the raw keyword names
      a sub-folder that `create_save_dir` did not create, every download
      call answers `False`: the candidate loop saves nothing. */
  lemma {:induction false} UnwritableSavesNothing(job: Job, env: Env, urls: seq<string>, st: State)
    requires forall k: nat, n: nat :: !env.writable(FilePath(job.saveDir, job.keyword, k), n)
    ensures Candidates(job, env, urls, st).total == st.total
    ensures Candidates(job, env, urls, st).saved == st.saved
    decreases |urls|
  {
    if urls != [] && st.total < job.maxCount {
      var path := FilePath(job.saveDir, job.keyword, st.total + 1);
      var d := DownloadCall(env, st.attempts, urls[0], path);
      var base := Requests(st.attempts);
      assert !d.ok by {
        assert forall k: nat :: !WritableFrom(env, base)(path, k);
      }
      var next := Step(job, env, st, urls[0]);
      assert next.total == st.total && next.saved == st.saved;
      UnwritableSavesNothing(job, env, urls[1..], next);
    }
  }

  /** The same for the page loop: with no writable save path the crawl ends
      with the count and the images it started with. */
  lemma {:induction false} UnwritableCrawlSavesNothing(job: Job, env: Env, pageNum: nat, st: State)
    requires pageNum <= MaxOffset
    requires forall k: nat, n: nat :: !env.writable(FilePath(job.saveDir, job.keyword, k), n)
    ensures Pages(job, env, pageNum, st).total == st.total
    ensures Pages(job, env, pageNum, st).saved == st.saved
    decreases MaxOffset - pageNum
  {
    if st.total < job.maxCount {
      PagesUnfold(job, env, pageNum, st);
      var requested := st.(offsets := st.offsets + [pageNum]);
      UnwritableSavesNothing(job, env, ExtractImageUrls(env.page(PageUrl(job.keyword, pageNum))), requested);
      if !LastPage(job, env, pageNum) {
        UnwritableCrawlSavesNothing(job, env, pageNum + PageStep, Visit(job, env, pageNum, st));
      }
    }
  }

  /** The candidates of the page at `offset`: what `extract_image_urls`
      finds in what `get_html` returned for it. */
  function PageCandidates(job: Job, env: Env, offset: nat): seq<string>
  {
    ExtractImageUrls(env.page(PageUrl(job.keyword, offset)))
  }

  /** The candidates of the pages at `offsets`, page after page. */
  function AllCandidates(job: Job, env: Env, offsets: seq<nat>): seq<string>
    decreases |offsets|
  {
    if offsets == [] then []
    else AllCandidates(job, env, offsets[..|offsets| - 1]) + PageCandidates(job, env, offsets[|offsets| - 1])
  }

  /** The candidates of the first `k` pages come first. */
  lemma {:induction false} AllCandidatesPrefix(job: Job, env: Env, offsets: seq<nat>, k: nat)
    requires k <= |offsets|
    ensures AllCandidates(job, env, offsets[..k]) <= AllCandidates(job, env, offsets)
    decreases |offsets|
  {
    if k < |offsets| {
      var n := |offsets| - 1;
      assert offsets[..n][..k] == offsets[..k];
      AllCandidatesPrefix(job, env, offsets[..n], k);
    } else {
      assert offsets[..k] == offsets;
    }
  }

  /** The URLs of the download calls, in call order. */
  function Urls(attempts: seq<Attempt>): seq<string>
  {
    seq(|attempts|, j requires 0 <= j < |attempts| => attempts[j].url)
  }

  /** Call `k` of a run logged from `from` went to candidate `k - from`. */
  lemma TriedAt(attempts: seq<Attempt>, from: nat, urls: seq<string>, k: nat)
    requires TriedInOrder(attempts, from, urls)
    requires from <= k < |attempts|
    ensures k - from < |urls| && attempts[k].url == urls[k - from]
  {
  }

  /** A log that extends `a` with calls to a prefix of `urls` lists the
      URLs of `a` followed by that prefix. */
  lemma UrlsOfRun(a: seq<Attempt>, b: seq<Attempt>, urls: seq<string>)
    requires a <= b
    requires TriedInOrder(b, |a|, urls)
    ensures Urls(b) == Urls(a) + urls[..|b| - |a|]
  {
    var ub, ua, run := Urls(b), Urls(a), urls[..|b| - |a|];
    forall k | 0 <= k < |ub|
      ensures ub[k] == (ua + run)[k]
    {
      if k < |a| {
        assert b[k] == a[k];
      } else {
        TriedAt(b, |a|, urls, k);
      }
    }
  }

  /** The candidate loop calls a prefix of its candidates, all of them
      unless the target is reached. */
  lemma {:induction false} CandidatesUrls(job: Job, env: Env, urls: seq<string>, st: State)
    ensures var r := Candidates(job, env, urls, st);
      var m := |r.attempts| - |st.attempts|;
      && 0 <= m <= |urls|
      && Urls(r.attempts) == Urls(st.attempts) + urls[..m]
      && (m < |urls| ==> r.total >= job.maxCount)
  {
    CandidatesInOrder(job, env, urls, st);
    CandidatesLeaveEarly(job, env, urls, st);
    CandidatesKeepLog(job, env, urls, st);
    UrlsOfRun(st.attempts, Candidates(job, env, urls, st).attempts, urls);
  }

  /** The calls went, page after page in request order, to every candidate
      of each page but the last and to a prefix of the candidates of the
      last one, and to all of those too unless the target was reached. */
  ghost predicate FollowsPages(job: Job, env: Env, total: nat, attempts: seq<Attempt>, offsets: seq<nat>)
  {
    && Urls(attempts) <= AllCandidates(job, env, offsets)
    && (offsets != [] ==> |AllCandidates(job, env, offsets[..|offsets| - 1])| <= |attempts|)
    && (total < job.maxCount ==> Urls(attempts) == AllCandidates(job, env, offsets))
  }

  /** The page loop downloads the candidates of the pages it requests, in
      page order and, within a page, in the order they were found. */
  lemma {:induction false} PagesFollowCandidates(job: Job, env: Env, pageNum: nat, st: State)
    requires pageNum <= MaxOffset
    requires Urls(st.attempts) == AllCandidates(job, env, st.offsets)
    ensures var r := Pages(job, env, pageNum, st);
      FollowsPages(job, env, r.total, r.attempts, r.offsets)
    decreases MaxOffset - pageNum
  {
    if st.total < job.maxCount {
      PagesUnfold(job, env, pageNum, st);
      var requested := st.(offsets := st.offsets + [pageNum]);
      var cands := PageCandidates(job, env, pageNum);
      assert requested.offsets[..|st.offsets|] == st.offsets;
      assert AllCandidates(job, env, requested.offsets) == AllCandidates(job, env, st.offsets) + cands;
      var done := Visit(job, env, pageNum, st);
      CandidatesUrls(job, env, cands, requested);
      CandidatesExtend(job, env, cands, requested);
      var m := |done.attempts| - |st.attempts|;
      assert Urls(done.attempts) == AllCandidates(job, env, st.offsets) + cands[..m];
      assert FollowsPages(job, env, done.total, done.attempts, done.offsets);
      if !LastPage(job, env, pageNum) {
        if done.total < job.maxCount {
          assert cands[..m] == cands;
          PagesFollowCandidates(job, env, pageNum + PageStep, done);
        } else {
          assert Pages(job, env, pageNum + PageStep, done) == done;
        }
      }
    } else {
      if st.offsets != [] {
        var n := |st.offsets| - 1;
        assert AllCandidates(job, env, st.offsets) ==
               AllCandidates(job, env, st.offsets[..n]) + PageCandidates(job, env, st.offsets[n]);
      }
    }
  }

  /** A candidate loop that changes the count makes at least one call. */
  lemma CandidatesCountNeedsCall(job: Job, env: Env, urls: seq<string>, st: State)
    ensures var r := Candidates(job, env, urls, st);
      r.total == st.total || |st.attempts| < |r.attempts|
  {
    if urls != [] && st.total < job.maxCount {
      var next := Step(job, env, st, urls[0]);
      StepAppends(job, env, st, urls[0]);
      CandidatesKeepLog(job, env, urls[1..], next);
    }
  }

  /** One page visited after every earlier candidate was called: its calls
      follow on, all of its candidates are called unless the target is
      reached, and reaching the target takes a call of this page. */
  lemma VisitFollowsCandidates(job: Job, env: Env, pageNum: nat, st: State)
    requires Urls(st.attempts) == AllCandidates(job, env, st.offsets)
    ensures var done := Visit(job, env, pageNum, st);
      && done.offsets == st.offsets + [pageNum]
      && (done.total < job.maxCount ==> Urls(done.attempts) == AllCandidates(job, env, done.offsets))
      && (st.total < job.maxCount <= done.total ==> |AllCandidates(job, env, st.offsets)| < |done.attempts|)
  {
    var requested := st.(offsets := st.offsets + [pageNum]);
    var cands := PageCandidates(job, env, pageNum);
    var done := Visit(job, env, pageNum, st);
    CandidatesUrls(job, env, cands, requested);
    CandidatesExtend(job, env, cands, requested);
    CandidatesCountNeedsCall(job, env, cands, requested);
    assert requested.offsets[..|st.offsets|] == st.offsets;
    assert AllCandidates(job, env, done.offsets) == AllCandidates(job, env, st.offsets) + cands;
    if done.total < job.maxCount {
      assert cands[..|done.attempts| - |st.attempts|] == cands;
    }
  }

  /** The `while` condition is checked before each page: once the count
      reaches the target no further page is requested, so the call that
      reached it belongs to the last page requested. */
  lemma {:induction false} PagesTargetOnLastPage(job: Job, env: Env, pageNum: nat, st: State)
    requires pageNum <= MaxOffset
    requires Urls(st.attempts) == AllCandidates(job, env, st.offsets)
    ensures var r := Pages(job, env, pageNum, st);
      st.total < job.maxCount <= r.total ==>
        r.offsets != [] && |AllCandidates(job, env, r.offsets[..|r.offsets| - 1])| < |r.attempts|
    decreases MaxOffset - pageNum
  {
    if st.total < job.maxCount {
      PagesUnfold(job, env, pageNum, st);
      var done := Visit(job, env, pageNum, st);
      VisitFollowsCandidates(job, env, pageNum, st);
      if done.total < job.maxCount {
        if !LastPage(job, env, pageNum) {
          PagesTargetOnLastPage(job, env, pageNum + PageStep, done);
        }
      } else {
        assert done.offsets[..|done.offsets| - 1] == st.offsets;
        if !LastPage(job, env, pageNum) {
          assert Pages(job, env, pageNum + PageStep, done) == done;
        }
      }
    }
  }

  /** Call `j` is the `download_image` call made after calls `0 .. j-1`:
      its answer is what the oracles give it then. */
  ghost predicate CallsAnswered(env: Env, attempts: seq<Attempt>)
  {
    forall j :: 0 <= j < |attempts| ==>
      attempts[j].result == DownloadCall(env, attempts[..j], attempts[j].url, attempts[j].path)
  }

  /** The call `a` answered `True` and wrote the image `s` to its path. */
  predicate WrittenBy(s: Saved, a: Attempt)
  {
    a.result.ok && a.path == s.path && a.result.written == Some(s.content)
  }

  /** Every saved image was written by a call of the log. */
  ghost predicate SavedFromCalls(saved: seq<Saved>, attempts: seq<Attempt>)
  {
    forall i :: 0 <= i < |saved| ==> SavedAt(saved, attempts, i)
  }

  /** Image `i` was written by a call of the log. */
  ghost predicate SavedAt(saved: seq<Saved>, attempts: seq<Attempt>, i: nat)
    requires i < |saved|
  {
    exists j :: 0 <= j < |attempts| && WrittenBy(saved[i], attempts[j])
  }

  /** Both of the above. */
  ghost predicate Traced(env: Env, st: State)
  {
    CallsAnswered(env, st.attempts) && SavedFromCalls(st.saved, st.attempts)
  }

  /** Logging the next call with the answer the oracles give it keeps
      every call answered. */
  lemma CallsAnsweredAppend(env: Env, attempts: seq<Attempt>, a: Attempt)
    requires CallsAnswered(env, attempts)
    requires a.result == DownloadCall(env, attempts, a.url, a.path)
    ensures CallsAnswered(env, attempts + [a])
  {
    var all := attempts + [a];
    forall j | 0 <= j < |all|
      ensures all[j].result == DownloadCall(env, all[..j], all[j].url, all[j].path)
    {
      assert all[..j] == attempts[..j] || j == |attempts|;
      if j == |attempts| {
        assert all[..j] == attempts;
      }
    }
  }

  /** Logging a call, and saving its bytes when it answered `True`, keeps
      every image traced to a call. */
  lemma SavedFromCallsAppend(saved: seq<Saved>, attempts: seq<Attempt>, a: Attempt, saved': seq<Saved>)
    requires SavedFromCalls(saved, attempts)
    requires saved <= saved' && |saved'| <= |saved| + 1
    requires |saved'| > |saved| ==> WrittenBy(saved'[|saved|], a)
    ensures SavedFromCalls(saved', attempts + [a])
  {
    var all := attempts + [a];
    forall i | 0 <= i < |saved'|
      ensures SavedAt(saved', all, i)
    {
      if i < |saved| {
        assert SavedAt(saved, attempts, i);
        var j :| 0 <= j < |attempts| && WrittenBy(saved[i], attempts[j]);
        assert all[j] == attempts[j] && saved'[i] == saved[i];
        assert WrittenBy(saved'[i], all[j]);
      } else {
        assert WrittenBy(saved'[i], all[|attempts|]);
      }
    }
  }

  /** One pass of the inner loop keeps every call and image traced. */
  lemma StepTraced(job: Job, env: Env, st: State, u: string)
    requires Traced(env, st)
    ensures Traced(env, Step(job, env, st, u))
  {
    var path := FilePath(job.saveDir, job.keyword, st.total + 1);
    var a := Attempt(u, path, DownloadCall(env, st.attempts, u, path));
    var next := Step(job, env, st, u);
    assert next.attempts == st.attempts + [a];
    CallsAnsweredAppend(env, st.attempts, a);
    SavedFromCallsAppend(st.saved, st.attempts, a, next.saved);
  }

  /** The candidate loop keeps every call and image traced. */
  lemma {:induction false} CandidatesTraced(job: Job, env: Env, urls: seq<string>, st: State)
    requires Traced(env, st)
    ensures Traced(env, Candidates(job, env, urls, st))
    decreases |urls|
  {
    if urls != [] && st.total < job.maxCount {
      StepTraced(job, env, st, urls[0]);
      CandidatesTraced(job, env, urls[1..], Step(job, env, st, urls[0]));
    }
  }

  /** The page loop keeps every call and image traced. */
  lemma {:induction false} PagesTraced(job: Job, env: Env, pageNum: nat, st: State)
    requires pageNum <= MaxOffset
    requires Traced(env, st)
    ensures Traced(env, Pages(job, env, pageNum, st))
    decreases MaxOffset - pageNum
  {
    if st.total < job.maxCount {
      PagesUnfold(job, env, pageNum, st);
      var requested := st.(offsets := st.offsets + [pageNum]);
      CandidatesTraced(job, env, PageCandidates(job, env, pageNum), requested);
      if !LastPage(job, env, pageNum) {
        PagesTraced(job, env, pageNum + PageStep, Visit(job, env, pageNum, st));
      }
    }
  }

  /** A call of the crawl that answered `True` wrote the body of a 200
      answer to its last request, request `Requests(attempts[..j + 1]) - 1`
      of the crawl, after which its path could be written. */
  lemma AnsweredCallFetched(env: Env, attempts: seq<Attempt>, j: nat)
    requires CallsAnswered(env, attempts)
    requires j < |attempts| && attempts[j].result.ok
    ensures var n := Requests(attempts[..j + 1]);
      && n >= 1
      && attempts[j].result.written.Some?
      && env.fetch(attempts[j].url, n - 1) == Status(StatusOk, attempts[j].result.written.value)
      && env.writable(attempts[j].path, n - 1)
  {
    assert attempts[..j + 1][..j] == attempts[..j];
    var base := Requests(attempts[..j]);
    var d := attempts[j].result;
    assert d == DownloadImage(attempts[j].url, attempts[j].path, DefaultRetry, FetchFrom(env, base), WritableFrom(env, base));
    assert FetchFrom(env, base)(attempts[j].url, d.requests - 1) == Status(StatusOk, d.written.value);
  }

  /** Image `s` holds the body of the 200 answer to the last request of a
      call of the log to its path. */
  ghost predicate FetchedBody(env: Env, attempts: seq<Attempt>, s: Saved)
  {
    exists j :: 0 <= j < |attempts| && attempts[j].path == s.path && LastAnswer(env, attempts, j) == Status(StatusOk, s.content)
  }

  /** The answer to the last request of call `j`. */
  function LastAnswer(env: Env, attempts: seq<Attempt>, j: nat): FetchOutcome
    requires j < |attempts|
  {
    var n := Requests(attempts[..j + 1]);
    if n == 0 then Raised else env.fetch(attempts[j].url, n - 1)
  }

  /** Every saved image holds a body the network answered with. */
  lemma SavedBodiesFetched(env: Env, saved: seq<Saved>, attempts: seq<Attempt>)
    requires CallsAnswered(env, attempts) && SavedFromCalls(saved, attempts)
    ensures forall i :: 0 <= i < |saved| ==> FetchedBody(env, attempts, saved[i])
  {
    forall i | 0 <= i < |saved|
      ensures FetchedBody(env, attempts, saved[i])
    {
      assert SavedAt(saved, attempts, i);
      var j :| 0 <= j < |attempts| && WrittenBy(saved[i], attempts[j]);
      WrittenBodyFetched(env, attempts, j, saved[i]);
    }
  }

  /** An image written by call `j` holds the body of the 200 answer to its
      last request. */
  lemma WrittenBodyFetched(env: Env, attempts: seq<Attempt>, j: nat, s: Saved)
    requires CallsAnswered(env, attempts)
    requires j < |attempts| && WrittenBy(s, attempts[j])
    ensures FetchedBody(env, attempts, s)
  {
    AnsweredCallFetched(env, attempts, j);
    assert LastAnswer(env, attempts, j) == Status(StatusOk, s.content);
  }

  /** What `crawl_images` promises. It makes no request when the directory
      cannot be created. Otherwise it returns the directory `create_save_dir`
      chose and a count between 0 and `max_count` (0, with no request at all,
      when `max_count <= 0`); the saved images are exactly `{keyword}_1.jpg`
      ... `{keyword}_N.jpg` with progress `1 ... N`; every download call was
      made below the target, to the next unused index; the pages requested
      are offsets `0, 20, ...`, at most 51 of them, each before the last
      present with candidates; the crawl stops only at the target or after
      a last page, and no page is requested after the one whose call
      reached the target; the download calls go to the candidates of the
      requested pages in order, all of them unless the target is reached; each call's
      answer is what the oracles give it after the calls before it; and
      every saved image was written by a call and holds a 200 body. */
  lemma CrawlImagesSpec(saveRoot: string, keyword: string, maxCount: int,
                        customPath: Option<string>, env: Env)
    ensures var r := CrawlImages(saveRoot, keyword, maxCount, customPath, env);
      && (r.NotStarted? <==> CreateSaveDir(saveRoot, keyword, customPath, env.makedirs).DirFailed?)
      && (r.Crawled? ==>
            var job := Job(keyword, maxCount, r.saveDir);
            && r.saveDir == SaveDir(saveRoot, keyword, customPath)
            && Bounded(r.total, maxCount)
            && (maxCount <= 0 ==> r.total == 0 && r.offsets == [] && r.attempts == [])
            && |r.saved| == r.total
            && OkCount(r.attempts) == r.total
            && SavedInSequence(job, r.saved)
            && AttemptsInSequence(job, r.saved, r.attempts)
            && OffsetsInSequence(r.offsets)
            && |r.offsets| <= MaxOffset / PageStep + 1
            && (r.total >= maxCount || (r.offsets != [] && LastPage(job, env, r.offsets[|r.offsets| - 1])))
            && (forall i :: 0 <= i < |r.offsets| - 1 ==> !LastPage(job, env, r.offsets[i]))
            && FollowsPages(job, env, r.total, r.attempts, r.offsets)
            && (0 < maxCount <= r.total ==>
                  r.offsets != [] && |AllCandidates(job, env, r.offsets[..|r.offsets| - 1])| < |r.attempts|)
            && CallsAnswered(env, r.attempts)
            && SavedFromCalls(r.saved, r.attempts)
            && (forall i :: 0 <= i < |r.saved| ==> FetchedBody(env, r.attempts, r.saved[i])))
  {
    match CreateSaveDir(saveRoot, keyword, customPath, env.makedirs)
    case DirFailed(e) =>
    case DirCreated(dir) =>
      var job := Job(keyword, maxCount, dir);
      assert Inv(job, Start);
      PagesSpec(job, env, 0, Start);
      PagesStop(job, env, 0, Start);
      PagesContinue(job, env, 0, Start);
      PagesFollowCandidates(job, env, 0, Start);
      PagesTargetOnLastPage(job, env, 0, Start);
      PagesTraced(job, env, 0, Start);
      var st := Pages(job, env, 0, Start);
      OffsetCount(st.offsets);
      SavedBodiesFetched(env, st.saved, st.attempts);
  }
}

=== FILE: downloads.dfy ===
/** Download with retry (`ImageSpider.download_image`). The network is an
    oracle `fetch(url, n)` giving the outcome of the `n`-th request (counted
    from 0) issued by one call; whether the file at a path can be opened and
    written after that request is an oracle `writable(path, n)`. Writing
    happens inside the same `try` as the request, so a failed write is
    retried like a failed request. */
module Downloads {
  import opened Wrappers
  import opened Strings

  /** The bytes of a response body or of a written file. */
  newtype Byte = x: int | 0 <= x < 256

  /** The status that counts as success. */
  const StatusOk: int := 200

  /** The retry budget `download_image` is called with. */
  const DefaultRetry: int := 3

  /** What one `requests.get` does: raise, or answer with a status and a body. */
  datatype FetchOutcome = Raised | Status(code: int, body: seq<Byte>)

  /** The result of one `download_image` call: its boolean answer, how many
      requests it issued, and the bytes it wrote to the save path, if any. */
  datatype Download = Download(ok: bool, requests: nat, written: Option<seq<Byte>>)

  /** Request `n` ends in the `except` branch: the request raised, or it
      answered 200 and writing the file raised. */
  predicate RaisesAt(url: string, path: string, n: nat,
                     fetch: (string, nat) -> FetchOutcome, writable: (string, nat) -> bool)
  {
    fetch(url, n).Raised? || (fetch(url, n).code == StatusOk && !writable(path, n))
  }

  /** `download_image(url, path, retry)` entered with `n` requests already
      issued by the calls it recursed from. */
  function DownloadFrom(url: string, path: string, retry: int, n: nat,
                        fetch: (string, nat) -> FetchOutcome, writable: (string, nat) -> bool): (r: Download)
    ensures !StartsWith(url, HttpPrefix) ==> r == Download(false, n, None)
    ensures StartsWith(url, HttpPrefix) ==> n < r.requests <= n + (if retry > 0 then retry else 0) + 1
    ensures r.ok <==> r.written.Some?
    ensures r.ok ==> fetch(url, r.requests - 1) == Status(StatusOk, r.written.value) && writable(path, r.requests - 1)
    ensures forall k :: n <= k < r.requests - 1 ==> RaisesAt(url, path, k, fetch, writable)
    decreases if retry > 0 then retry else 0
  {
    if !StartsWith(url, HttpPrefix) then Download(false, n, None)
    else
      var o := fetch(url, n);
      if o.Status? && o.code != StatusOk then Download(false, n + 1, None)
      else if o.Status? && writable(path, n) then Download(true, n + 1, Some(o.body))
      else if retry > 0 then DownloadFrom(url, path, retry - 1, n + 1, fetch, writable)
      else Download(false, n + 1, None)
  }

  /** `download_image(url, path, retry)`. No request for a URL without the
      `http` prefix; otherwise between 1 and `retry + 1` requests, all but
      the last ending in an exception; a file is written exactly when the
      answer is `True`, and then it holds the body of a 200 answer to the
      last request. */
  function DownloadImage(url: string, path: string, retry: int,
                         fetch: (string, nat) -> FetchOutcome, writable: (string, nat) -> bool): (r: Download)
    ensures !StartsWith(url, HttpPrefix) ==> !r.ok && r.requests == 0 && r.written == None
    ensures StartsWith(url, HttpPrefix) ==> 1 <= r.requests <= (if retry > 0 then retry else 0) + 1
    ensures r.ok <==> r.written.Some?
    ensures r.ok ==> fetch(url, r.requests - 1) == Status(StatusOk, r.written.value) && writable(path, r.requests - 1)
    ensures forall k :: 0 <= k < r.requests - 1 ==> RaisesAt(url, path, k, fetch, writable)
  {
    DownloadFrom(url, path, retry, 0, fetch, writable)
  }

  /** A status other than 200 ends the call at once: `False`, no retry,
      nothing written, whatever budget is left. */
  lemma {:induction false} NoRetryOnStatus(url: string, path: string, retry: int, n: nat,
                                           fetch: (string, nat) -> FetchOutcome, writable: (string, nat) -> bool)
    requires StartsWith(url, HttpPrefix)
    requires fetch(url, n).Status? && fetch(url, n).code != StatusOk
    ensures DownloadFrom(url, path, retry, n, fetch, writable) == Download(false, n + 1, None)
  {
  }

  /** How a call ends is decided by its last request: an answer with a status
      other than 200 or a written 200 answer stops it; an exception stops it
      only when the budget is used up. */
  lemma {:induction false} LastRequestDecides(url: string, path: string, retry: int, n: nat,
                                              fetch: (string, nat) -> FetchOutcome, writable: (string, nat) -> bool)
    requires StartsWith(url, HttpPrefix)
    ensures var r := DownloadFrom(url, path, retry, n, fetch, writable);
      && (r.ok <==> !RaisesAt(url, path, r.requests - 1, fetch, writable) && fetch(url, r.requests - 1).code == StatusOk)
      && (RaisesAt(url, path, r.requests - 1, fetch, writable) ==> r.requests == n + (if retry > 0 then retry else 0) + 1)
    decreases if retry > 0 then retry else 0
  {
    var o := fetch(url, n);
    if o.Status? && o.code != StatusOk {
    } else if o.Status? && writable(path, n) {
    } else if retry > 0 {
      LastRequestDecides(url, path, retry - 1, n + 1, fetch, writable);
    }
  }

  /** Requests that all end in the `except` branch use the whole budget:
      `retry + 1` requests, answer `False`, nothing written. With the
      default budget of 3 that is four requests. */
  lemma {:induction false} AlwaysRaisingUsesBudget(url: string, path: string, retry: int, n: nat,
                                                   fetch: (string, nat) -> FetchOutcome, writable: (string, nat) -> bool)
    requires StartsWith(url, HttpPrefix)
    requires forall k :: n <= k <= n + (if retry > 0 then retry else 0) ==> RaisesAt(url, path, k, fetch, writable)
    ensures DownloadFrom(url, path, retry, n, fetch, writable) == Download(false, n + (if retry > 0 then retry else 0) + 1, None)
    decreases if retry > 0 then retry else 0
  {
    assert RaisesAt(url, path, n, fetch, writable);
    if retry > 0 {
      AlwaysRaisingUsesBudget(url, path, retry - 1, n + 1, fetch, writable);
    }
  }

  /** The default budget: a URL whose requests always raise is requested
      four times, not three. */
  lemma DefaultBudgetIsFourRequests(url: string, path: string,
                                    fetch: (string, nat) -> FetchOutcome, writable: (string, nat) -> bool)
    requires StartsWith(url, HttpPrefix)
    requires forall k :: fetch(url, k).Raised?
    ensures DownloadImage(url, path, DefaultRetry, fetch, writable).requests == 4
    ensures !DownloadImage(url, path, DefaultRetry, fetch, writable).ok
  {
    assert forall k :: 0 <= k <= DefaultRetry ==> RaisesAt(url, path, k, fetch, writable);
    AlwaysRaisingUsesBudget(url, path, DefaultRetry, 0, fetch, writable);
  }

  /** A 200 answer whose file cannot be written is retried like an
      exception: when the path can never be written, the whole default
      budget of four requests is spent and the answer is `False`. */
  lemma UnwritablePathUsesBudget(url: string, path: string,
                                 fetch: (string, nat) -> FetchOutcome, writable: (string, nat) -> bool)
    requires StartsWith(url, HttpPrefix)
    requires forall k :: fetch(url, k).Status? && fetch(url, k).code == StatusOk
    requires forall k :: !writable(path, k)
    ensures DownloadImage(url, path, DefaultRetry, fetch, writable) == Download(false, 4, None)
  {
    assert forall k :: 0 <= k <= DefaultRetry ==> RaisesAt(url, path, k, fetch, writable);
    AlwaysRaisingUsesBudget(url, path, DefaultRetry, 0, fetch, writable);
  }

  /** Two exceptions followed by a 200 answer that can be written: success
      on the third request. */
  lemma TwoFailuresThenSuccess(url: string, path: string, body: seq<Byte>,
                               fetch: (string, nat) -> FetchOutcome, writable: (string, nat) -> bool)
    requires StartsWith(url, HttpPrefix)
    requires fetch(url, 0).Raised? && fetch(url, 1).Raised?
    requires fetch(url, 2) == Status(StatusOk, body) && writable(path, 2)
    ensures DownloadImage(url, path, DefaultRetry, fetch, writable) == Download(true, 3, Some(body))
  {
    assert DownloadFrom(url, path, DefaultRetry - 2, 2, fetch, writable) == Download(true, 3, Some(body));
  }

  /** The same download written as a loop with an explicit counter of
      retries left, as one would replace the self-recursion. */
  method DownloadLoop(url: string, path: string, retry: int,
                      fetch: (string, nat) -> FetchOutcome, writable: (string, nat) -> bool) returns (r: Download)
    ensures r == DownloadImage(url, path, retry, fetch, writable)
  {
    if !StartsWith(url, HttpPrefix) {
      return Download(false, 0, None);
    }
    var left := retry;
    var n: nat := 0;
    while true
      invariant DownloadFrom(url, path, left, n, fetch, writable) == DownloadImage(url, path, retry, fetch, writable)
      decreases if left > 0 then left else 0
    {
      var o := fetch(url, n);
      if o.Status? && o.code != StatusOk {
        return Download(false, n + 1, None);
      }
      if o.Status? && writable(path, n) {
        return Download(true, n + 1, Some(o.body));
      }
      if left <= 0 {
        return Download(false, n + 1, None);
      }
      left := left - 1;
      n := n + 1;
    }
  }
}

=== FILE: extraction.dfy ===
/** URL extraction (`ImageSpider.extract_image_urls`): the captures of the
    fixed pattern `"objURL":"(.*?)"` (with `re.S`, so the capture may span
    lines), found left to right without overlap, keeping those that start
    with `http`. */
module Extraction {
  import opened Wrappers
  import opened Strings

  /** The literal text in front of every embedded image URL. */
  const Marker: string := "\"objURL\":\""

  /** Index of the first occurrence of `c` in `s`. */
  function FirstIndex(s: string, c: char): (k: nat)
    requires c in s
    ensures k < |s| && s[k] == c
    ensures forall j :: 0 <= j < k ==> s[j] != c
    decreases |s|
  {
    if s[0] == c then 0 else 1 + FirstIndex(s[1..], c)
  }

  /** The first occurrence is the only position holding `c` with none before it. */
  lemma {:induction false} FirstIndexUnique(s: string, c: char, k: nat)
    requires k < |s| && s[k] == c
    requires forall j :: 0 <= j < k ==> s[j] != c
    ensures c in s && FirstIndex(s, c) == k
  {
  }

  /** The pattern matches at the start of `s`: the marker is there and a
      closing quote follows it somewhere. */
  predicate MatchesHere(s: string)
  {
    |Marker| <= |s| && s[..|Marker|] == Marker && Quote in s[|Marker|..]
  }

  /** What `re.findall` returns for the pattern: at each position, try to
      match; on success take the text up to the first quote after the marker
      and resume after that quote, otherwise move on by one character. */
  function Captures(s: string): seq<string>
    decreases |s|
  {
    if |s| < |Marker| then []
    else if MatchesHere(s) then
      var k := FirstIndex(s[|Marker|..], Quote);
      [s[|Marker|..|Marker| + k]] + Captures(s[|Marker| + k + 1..])
    else Captures(s[1..])
  }

  /** The list comprehension that keeps the captures starting with `http`. */
  function HttpOnly(xs: seq<string>): seq<string>
    decreases |xs|
  {
    if xs == [] then []
    else if StartsWith(xs[0], HttpPrefix) then [xs[0]] + HttpOnly(xs[1..])
    else HttpOnly(xs[1..])
  }

  /** `extract_image_urls(html)`: `[]` for `None` or `""`, otherwise the
      captures that start with `http`. */
  function ExtractImageUrls(html: Option<string>): seq<string>
  {
    if !Truthy(html) then [] else HttpOnly(Captures(html.value))
  }

  /** The filter keeps exactly the elements with the prefix, each as often
      as it occurs, in their order. */
  lemma {:induction false} HttpOnlySpec(xs: seq<string>)
    ensures forall x :: x in HttpOnly(xs) <==> x in xs && StartsWith(x, HttpPrefix)
    ensures forall x :: multiset(HttpOnly(xs))[x] == (if StartsWith(x, HttpPrefix) then multiset(xs)[x] else 0)
    ensures IsSubsequence(HttpOnly(xs), xs)
    decreases |xs|
  {
    if xs != [] {
      HttpOnlySpec(xs[1..]);
      assert xs == [xs[0]] + xs[1..];
      assert multiset(xs) == multiset([xs[0]]) + multiset(xs[1..]);
      var rest := HttpOnly(xs[1..]);
      if StartsWith(xs[0], HttpPrefix) {
        assert ([xs[0]] + rest)[1..] == rest;
        assert multiset([xs[0]] + rest) == multiset([xs[0]]) + multiset(rest);
      }
    }
  }

  /** A list whose elements all have the prefix passes the filter unchanged. */
  lemma {:induction false} HttpOnlyKeepsAll(xs: seq<string>)
    requires forall x :: x in xs ==> StartsWith(x, HttpPrefix)
    ensures HttpOnly(xs) == xs
    decreases |xs|
  {
    if xs != [] {
      assert xs[0] in xs;
      assert forall x :: x in xs[1..] ==> x in xs;
      HttpOnlyKeepsAll(xs[1..]);
      assert [xs[0]] + xs[1..] == xs;
    }
  }

  /** No capture holds a quote: the lazy capture stops at the first one. */
  lemma {:induction false} CapturesQuoteFree(s: string)
    ensures forall c :: c in Captures(s) ==> Quote !in c
    decreases |s|
  {
    if |s| >= |Marker| {
      if MatchesHere(s) {
        var k := FirstIndex(s[|Marker|..], Quote);
        var c0 := s[|Marker|..|Marker| + k];
        assert c0 == s[|Marker|..][..k];
        assert Quote !in c0;
        CapturesQuoteFree(s[|Marker| + k + 1..]);
      } else {
        CapturesQuoteFree(s[1..]);
      }
    }
  }

  /** Every capture really is matched in the page: the marker, the capture
      and a closing quote occur together in `s`. */
  lemma {:induction false} CapturesOccur(s: string)
    ensures forall c :: c in Captures(s) ==> Contains(s, Marker + c + [Quote])
    decreases |s|
  {
    if |s| >= |Marker| {
      if MatchesHere(s) {
        var k := FirstIndex(s[|Marker|..], Quote);
        var c0 := s[|Marker|..|Marker| + k];
        var d := |Marker| + k + 1;
        assert s[..|Marker|] == Marker;
        assert s[|Marker|..][k] == Quote;
        assert s[0..d] == Marker + c0 + [Quote] by {
          forall i | 0 <= i < d
            ensures s[0..d][i] == (Marker + c0 + [Quote])[i]
          {
            if i < |Marker| {
              assert s[..|Marker|][i] == s[i];
            } else if i < |Marker| + k {
              assert c0[i - |Marker|] == s[i];
            } else {
              assert s[|Marker|..][k] == s[i];
            }
          }
        }
        assert OccursAt(s, Marker + c0 + [Quote], 0);
        CapturesOccur(s[d..]);
        forall c | c in Captures(s[d..])
          ensures Contains(s, Marker + c + [Quote])
        {
          ContainsInSuffix(s, d, Marker + c + [Quote]);
        }
      } else {
        CapturesOccur(s[1..]);
        forall c | c in Captures(s[1..])
          ensures Contains(s, Marker + c + [Quote])
        {
          ContainsInSuffix(s, 1, Marker + c + [Quote]);
        }
      }
    }
  }

  /** What the function promises a caller: only `http`-prefixed, quote-free
      URLs, each embedded after the marker in the body, in page order as a
      subsequence of all captures, each `http` capture as often as the page
      holds it; nothing for an absent or empty body. */
  lemma ExtractImageUrlsSpec(html: Option<string>)
    ensures !Truthy(html) ==> ExtractImageUrls(html) == []
    ensures forall u :: u in ExtractImageUrls(html) ==> StartsWith(u, HttpPrefix) && Quote !in u
    ensures Truthy(html) ==> forall u :: u in ExtractImageUrls(html) ==> Contains(html.value, Marker + u + [Quote])
    ensures Truthy(html) ==> forall u :: u in ExtractImageUrls(html) <==> u in Captures(html.value) && StartsWith(u, HttpPrefix)
    ensures Truthy(html) ==> forall u :: multiset(ExtractImageUrls(html))[u] == (if StartsWith(u, HttpPrefix) then multiset(Captures(html.value))[u] else 0)
    ensures Truthy(html) ==> IsSubsequence(ExtractImageUrls(html), Captures(html.value))
  {
    if Truthy(html) {
      HttpOnlySpec(Captures(html.value));
      CapturesQuoteFree(html.value);
      CapturesOccur(html.value);
    }
  }

  /** One embedded URL entry as it appears in a result page. */
  function Entry(u: string): string
  {
    Marker + u + [Quote]
  }

  /** A page body made of the entries of `urls`, one after the other. */
  function Page(urls: seq<string>): string
    decreases |urls|
  {
    if urls == [] then [] else Entry(urls[0]) + Page(urls[1..])
  }

  /** A quote-free URL entry at the front of the text is captured first,
      and scanning resumes right after it. */
  lemma CapturesOfEntry(u: string, rest: string)
    requires Quote !in u
    ensures Captures(Entry(u) + rest) == [u] + Captures(rest)
  {
    var s := Entry(u) + rest;
    var m := |Marker|;
    assert s[..m] == Marker;
    assert s[m..] == u + [Quote] + rest;
    forall j | 0 <= j < |u|
      ensures s[m..][j] != Quote
    {
      assert s[m..][j] == u[j];
      assert u[j] in u;
    }
    FirstIndexUnique(s[m..], Quote, |u|);
    assert MatchesHere(s);
    assert s[m..m + |u|] == u;
    assert s[m + |u| + 1..] == rest;
  }

  /** Round trip: the captures of a page built from quote-free URLs are
      exactly those URLs, in order. */
  lemma {:induction false} CapturesOfPage(urls: seq<string>)
    requires forall u :: u in urls ==> Quote !in u
    ensures Captures(Page(urls)) == urls
    decreases |urls|
  {
    if urls != [] {
      assert urls[0] in urls;
      assert forall u :: u in urls[1..] ==> u in urls;
      CapturesOfPage(urls[1..]);
      CapturesOfEntry(urls[0], Page(urls[1..]));
      assert [urls[0]] + urls[1..] == urls;
    }
  }

  /** Round trip through extraction: a page built from quote-free URLs gives
      back exactly those starting with `http`, in order. */
  lemma ExtractFromPage(urls: seq<string>)
    requires forall u :: u in urls ==> Quote !in u
    ensures ExtractImageUrls(Some(Page(urls))) == HttpOnly(urls)
  {
    CapturesOfPage(urls);
    if urls == [] {
      assert Page(urls) == [];
    } else {
      assert |Page(urls)| >= |Entry(urls[0])| > 0;
    }
  }

  /** The filter is a plain prefix test: `httpfoo` is kept while a relative
      reference is dropped. */
  lemma PrefixNotScheme()
    ensures ExtractImageUrls(Some(Page(["/rel.jpg", "httpfoo"]))) == ["httpfoo"]
  {
    ExtractFromPage(["/rel.jpg", "httpfoo"]);
    assert StartsWith("httpfoo", HttpPrefix);
    assert "/rel.jpg"[..|HttpPrefix|][0] != HttpPrefix[0];
    assert ["/rel.jpg", "httpfoo"][1..] == ["httpfoo"];
  }

  /** When the pattern matches at `i` with its first closing quote at `j`,
      the captures from `i` are that capture followed by those after `j`. */
  lemma CapturesStepMatch(s: string, i: nat, j: nat)
    requires i + |Marker| <= j < |s|
    requires s[i..i + |Marker|] == Marker
    requires s[j] == Quote
    requires forall k :: i + |Marker| <= k < j ==> s[k] != Quote
    ensures Captures(s[i..]) == [s[i + |Marker|..j]] + Captures(s[j + 1..])
  {
    var t := s[i..];
    var m := |Marker|;
    assert t[..m] == Marker;
    assert t[m..][j - i - m] == Quote;
    FirstIndexUnique(t[m..], Quote, j - i - m);
    assert MatchesHere(t);
    assert t[m..m + (j - i - m)] == s[i + m..j];
    assert t[m + (j - i - m) + 1..] == s[j + 1..];
  }

  /** When the pattern does not match at `i`, scanning moves on by one. */
  lemma CapturesStepSkip(s: string, i: nat)
    requires i < |s|
    requires !MatchesHere(s[i..])
    ensures Captures(s[i..]) == Captures(s[i + 1..])
  {
    assert s[i..][1..] == s[i + 1..];
  }

  /** Filtering a list with a known head. */
  lemma HttpOnlyCons(u: string, rest: seq<string>)
    ensures HttpOnly([u] + rest) == (if StartsWith(u, HttpPrefix) then [u] else []) + HttpOnly(rest)
  {
    assert ([u] + rest)[1..] == rest;
  }

  /** The first quote at or after `from`, or `|s|` when there is none. */
  method FindQuote(s: string, from: nat) returns (j: nat)
    requires from <= |s|
    ensures from <= j <= |s|
    ensures j < |s| ==> s[j] == Quote
    ensures forall k :: from <= k < j ==> s[k] != Quote
  {
    j := from;
    while j < |s| && s[j] != Quote
      invariant from <= j <= |s|
      invariant forall k :: from <= k < j ==> s[k] != Quote
      decreases |s| - j
    {
      j := j + 1;
    }
  }

  /** The marker starts at `i`. */
  predicate MarkerAt(s: string, i: nat)
  {
    i + |Marker| <= |s| && s[i..i + |Marker|] == Marker
  }

  /** The scanner's invariant: the URLs kept so far, followed by those the
      rest of the body gives, are the URLs of the whole body. */
  ghost predicate ScanInv(s: string, i: nat, urls: seq<string>)
    requires i <= |s|
  {
    urls + HttpOnly(Captures(s[i..])) == HttpOnly(Captures(s))
  }

  /** The scanner itself: one pass over the body with an index, searching
      for the closing quote after each marker. */
  method ScanImageUrls(html: Option<string>) returns (urls: seq<string>)
    ensures urls == ExtractImageUrls(html)
  {
    if !Truthy(html) {
      return [];
    }
    var s := html.value;
    var i := 0;
    urls := [];
    while i < |s|
      invariant 0 <= i <= |s|
      invariant ScanInv(s, i, urls)
      decreases |s| - i
    {
      i, urls := ScanStep(s, i, urls);
    }
    assert s[i..] == [];
    assert urls + [] == urls;
  }

  /** One step of the scanner: take the capture of a match at `i` and
      resume after its closing quote, or move on by one character. */
  method ScanStep(s: string, i: nat, urls: seq<string>) returns (i': nat, urls': seq<string>)
    requires i < |s|
    requires ScanInv(s, i, urls)
    ensures i < i' <= |s|
    ensures ScanInv(s, i', urls')
  {
    var m := |Marker|;
    if MarkerAt(s, i) {
      var j := FindQuote(s, i + m);
      if j < |s| {
        var u := s[i + m..j];
        ScanKeepStep(s, i, j, urls);
        urls' := if StartsWith(u, HttpPrefix) then urls + [u] else urls;
        i' := j + 1;
        return;
      }
      ScanSkipStep(s, i, j, urls);
    } else {
      ScanSkipStep(s, i, |s|, urls);
    }
    urls' := urls;
    i' := i + 1;
  }

  /** The scanner's invariant survives taking the capture between `i + |Marker|` and `j`. */
  lemma ScanKeepStep(s: string, i: nat, j: nat, urls: seq<string>)
    requires MarkerAt(s, i) && i + |Marker| <= j < |s|
    requires s[j] == Quote
    requires forall k :: i + |Marker| <= k < j ==> s[k] != Quote
    requires ScanInv(s, i, urls)
    ensures var u := s[i + |Marker|..j];
      ScanInv(s, j + 1, if StartsWith(u, HttpPrefix) then urls + [u] else urls)
  {
    var u := s[i + |Marker|..j];
    CapturesStepMatch(s, i, j);
    HttpOnlyCons(u, Captures(s[j + 1..]));
  }

  /** The scanner's invariant survives moving on by one character. */
  lemma ScanSkipStep(s: string, i: nat, j: nat, urls: seq<string>)
    requires i < |s|
    requires !MarkerAt(s, i) || j == |s|
    requires MarkerAt(s, i) ==> forall k :: i + |Marker| <= k < j ==> s[k] != Quote
    requires ScanInv(s, i, urls)
    ensures ScanInv(s, i + 1, urls)
  {
    NoMatchAt(s, i, j);
    CapturesStepSkip(s, i);
  }

  /** The scanner's test for a match at `i` failed (no marker there, or no
      quote after it), so the pattern does not match at `i`. */
  lemma NoMatchAt(s: string, i: nat, j: nat)
    requires i < |s|
    requires !MarkerAt(s, i) || j == |s|
    requires MarkerAt(s, i) ==> forall k :: i + |Marker| <= k < j ==> s[k] != Quote
    ensures !MatchesHere(s[i..])
  {
    var m := |Marker|;
    if m <= |s[i..]| && s[i..][..m] == Marker {
      assert s[i..][..m] == s[i..i + m];
      forall k | 0 <= k < |s[i..][m..]|
        ensures s[i..][m..][k] != Quote
      {
        assert s[i..][m..][k] == s[i + m + k];
      }
    }
  }
}

=== FILE: paths.dfy ===
/** Directory-name policy of the spider: where the images of one crawl go
    (`ImageSpider.__init__` and `ImageSpider.create_save_dir`), with
    `os.path.join` taken as POSIX `posixpath.join` of two components and
    `os.makedirs` taken as an effect whose success an environment decides. */
module Paths {
  import opened Wrappers
  import opened Strings

  /** POSIX `os.path.join(a, b)`: an absolute `b` replaces `a`; otherwise
      `b` is appended, with a `/` in between unless `a` is empty or already
      ends with one. */
  function Join(a: string, b: string): (r: string)
  {
    if StartsWith(b, "/") then b
    else if a == [] || a[|a| - 1] == '/' then a + b
    else a + "/" + b
  }

  /** A `/`-free name joined under a directory lands directly inside it:
      the directory is a prefix of the result, the name is its last
      component, and at most one separator lies between them. */
  lemma JoinPlacesNameInDir(a: string, b: string)
    requires '/' !in b
    ensures StartsWith(Join(a, b), a)
    ensures LastSegment(Join(a, b)) == b
    ensures |Join(a, b)| <= |a| + 1 + |b|
  {
    assert !StartsWith(b, "/") by {
      if |b| >= 1 {
        assert b[0] in b;
      }
    }
    if a == [] || a[|a| - 1] == '/' {
      assert (a + b)[..|a|] == a;
      LastSegmentAfterSlash(a, b);
    } else {
      assert Join(a, b) == (a + "/") + b;
      assert ((a + "/") + b)[..|a|] == a;
      LastSegmentAfterSlash(a + "/", b);
    }
  }

  /** Joining a relative `x/y` under a directory is joining `y` under the
      sub-folder `x` of that directory. */
  lemma JoinNested(d: string, x: string, y: string)
    requires x != [] && x[0] != '/' && x[|x| - 1] != '/'
    requires !StartsWith(y, "/")
    ensures Join(d, x + "/" + y) == Join(Join(d, x), y)
  {
    var xy := x + "/" + y;
    assert !StartsWith(x, "/") by {
      assert x[..1][0] == x[0];
    }
    assert !StartsWith(xy, "/") by {
      assert xy[..1][0] == x[0];
    }
    var sep := if d == [] || d[|d| - 1] == '/' then d else d + "/";
    assert Join(d, x) == sep + x;
    assert Join(d, xy) == sep + xy;
    var dx := sep + x;
    assert dx != [] && dx[|dx| - 1] == x[|x| - 1];
    assert Join(dx, y) == dx + "/" + y;
    assert sep + xy == dx + "/" + y;
  }

  /** The characters `re.sub(r'[\\/:*?"<>|]', '_', keyword)` replaces. */
  const Reserved: set<char> := {'\\', '/', ':', '*', '?', '"', '<', '>', '|'}

  /** The underscore every reserved character becomes. */
  const Underscore: char := '_'

  /** The keyword with every reserved character replaced by `_`. */
  function Sanitize(keyword: string): (r: string)
    decreases |keyword|
  {
    if keyword == [] then []
    else [if keyword[0] in Reserved then Underscore else keyword[0]] + Sanitize(keyword[1..])
  }

  /** Position by position, a sanitised keyword holds `_` where the keyword
      holds a reserved character and the keyword's own character elsewhere. */
  lemma {:induction false} SanitizeSpec(keyword: string)
    ensures |Sanitize(keyword)| == |keyword|
    ensures forall i :: 0 <= i < |keyword| && keyword[i] in Reserved ==> Sanitize(keyword)[i] == Underscore
    ensures forall i :: 0 <= i < |keyword| && keyword[i] !in Reserved ==> Sanitize(keyword)[i] == keyword[i]
    decreases |keyword|
  {
    if keyword != [] {
      SanitizeSpec(keyword[1..]);
      var r := Sanitize(keyword);
      forall i | 1 <= i < |keyword|
        ensures r[i] == Sanitize(keyword[1..])[i - 1] && keyword[i] == keyword[1..][i - 1]
      {
      }
    }
  }

  /** A sanitised keyword holds no reserved character (and so no `/`). */
  lemma {:induction false} SanitizeClean(keyword: string)
    ensures forall c :: c in Sanitize(keyword) ==> c !in Reserved
    ensures '/' !in Sanitize(keyword)
  {
    SanitizeSpec(keyword);
    var r := Sanitize(keyword);
    forall c | c in r
      ensures c !in Reserved
    {
      var i :| 0 <= i < |r| && r[i] == c;
    }
  }

  /** A keyword is left unchanged exactly when it holds no reserved character. */
  lemma {:induction false} SanitizeFixpoint(keyword: string)
    ensures Sanitize(keyword) == keyword <==> forall c :: c in keyword ==> c !in Reserved
  {
    SanitizeSpec(keyword);
    SanitizeClean(keyword);
    if forall c :: c in keyword ==> c !in Reserved {
      assert forall i :: 0 <= i < |keyword| ==> keyword[i] in keyword;
    }
  }

  /** Sanitising twice is the same as sanitising once. */
  lemma {:induction false} SanitizeIdempotent(keyword: string)
    ensures Sanitize(Sanitize(keyword)) == Sanitize(keyword)
  {
    SanitizeClean(keyword);
    SanitizeFixpoint(Sanitize(keyword));
  }

  /** Python's `path.replace('"', '')`. */
  function StripQuotes(path: string): (r: string)
    decreases |path|
  {
    if path == [] then []
    else (if path[0] == Quote then [] else [path[0]]) + StripQuotes(path[1..])
  }

  /** Stripping removes every double quote and keeps every other character
      with its multiplicity, in order. */
  lemma {:induction false} StripQuotesSpec(path: string)
    ensures Quote !in StripQuotes(path)
    ensures forall c :: c != Quote ==> multiset(StripQuotes(path))[c] == multiset(path)[c]
    ensures IsSubsequence(StripQuotes(path), path)
    decreases |path|
  {
    if path != [] {
      StripQuotesSpec(path[1..]);
      assert path == [path[0]] + path[1..];
      assert multiset(path) == multiset([path[0]]) + multiset(path[1..]);
      var rest := StripQuotes(path[1..]);
      if path[0] == Quote {
        assert StripQuotes(path) == rest;
        SubsequenceSkip(path[0], rest, path[1..]);
      } else {
        assert StripQuotes(path) == [path[0]] + rest;
        assert multiset([path[0]] + rest) == multiset([path[0]]) + multiset(rest);
        assert ([path[0]] + rest)[1..] == rest;
      }
    }
  }

  /** Prepending an element to the longer sequence keeps a subsequence. */
  lemma {:induction false} SubsequenceSkip<T>(x: T, a: seq<T>, b: seq<T>)
    requires IsSubsequence(a, b)
    ensures IsSubsequence(a, [x] + b)
  {
    assert ([x] + b)[1..] == b;
  }

  /** A path without double quotes is left as it is. */
  lemma {:induction false} StripQuotesIdentity(path: string)
    requires Quote !in path
    ensures StripQuotes(path) == path
    decreases |path|
  {
    if path != [] {
      assert Quote !in path[1..] by {
        assert forall c :: c in path[1..] ==> c in path;
      }
      StripQuotesIdentity(path[1..]);
      assert [path[0]] + path[1..] == path;
    }
  }

  /** Stripping twice is the same as stripping once. */
  lemma StripQuotesIdempotent(path: string)
    ensures StripQuotes(StripQuotes(path)) == StripQuotes(path)
  {
    StripQuotesSpec(path);
    StripQuotesIdentity(StripQuotes(path));
  }

  /** The directory under which keyword folders go: the constructor's
      `save_root` when it is a non-empty string, otherwise `downloads`
      under the current working directory `cwd`. */
  function SaveRoot(saveRoot: Option<string>, cwd: string): (r: string)
    ensures Truthy(saveRoot) ==> r == saveRoot.value
    ensures !Truthy(saveRoot) ==> StartsWith(r, cwd) && LastSegment(r) == "downloads"
    ensures !Truthy(saveRoot) ==> |r| <= |cwd| + 1 + |"downloads"|
  {
    JoinPlacesNameInDir(cwd, "downloads");
    if Truthy(saveRoot) then saveRoot.value else Join(cwd, "downloads")
  }

  /** The directory `create_save_dir` computes: a non-empty custom path with
      its double quotes stripped, or else the sanitised keyword joined under
      the save root. */
  function SaveDir(saveRoot: string, keyword: string, customPath: Option<string>): string
  {
    if Truthy(customPath) then StripQuotes(customPath.value)
    else Join(saveRoot, Sanitize(keyword))
  }

  /** A custom path yields the path with every double quote removed and
      every other character kept, in order; without one, the directory is a
      folder directly under the save root named by the sanitised keyword. */
  lemma SaveDirSpec(saveRoot: string, keyword: string, customPath: Option<string>)
    ensures Truthy(customPath) ==> Quote !in SaveDir(saveRoot, keyword, customPath)
    ensures Truthy(customPath) ==> IsSubsequence(SaveDir(saveRoot, keyword, customPath), customPath.value)
    ensures Truthy(customPath) ==> forall c :: c != Quote ==>
              multiset(SaveDir(saveRoot, keyword, customPath))[c] == multiset(customPath.value)[c]
    ensures Truthy(customPath) && Quote !in customPath.value ==> SaveDir(saveRoot, keyword, customPath) == customPath.value
    ensures !Truthy(customPath) ==> StartsWith(SaveDir(saveRoot, keyword, customPath), saveRoot)
    ensures !Truthy(customPath) ==> LastSegment(SaveDir(saveRoot, keyword, customPath)) == Sanitize(keyword)
    ensures !Truthy(customPath) ==> |SaveDir(saveRoot, keyword, customPath)| <= |saveRoot| + 1 + |keyword|
  {
    if Truthy(customPath) {
      StripQuotesSpec(customPath.value);
      assert SaveDir(saveRoot, keyword, customPath) == StripQuotes(customPath.value);
      if Quote !in customPath.value {
        StripQuotesIdentity(customPath.value);
      }
    } else {
      SanitizeSpec(keyword);
      SanitizeClean(keyword);
      JoinPlacesNameInDir(saveRoot, Sanitize(keyword));
    }
  }

  /** Why a crawl could not start. */
  datatype FsError = MakeDirsFailed(dir: string)

  /** Outcome of `create_save_dir`: the directory, or the error
      `os.makedirs` raised. */
  datatype DirResult = DirCreated(dir: string) | DirFailed(error: FsError)

  /** `create_save_dir`. `makedirs(d)` tells whether `os.makedirs(d,
      exist_ok=True)` succeeds for a non-empty `d` (it succeeds when the
      directory already exists); for the empty path it always raises. */
  function CreateSaveDir(saveRoot: string, keyword: string, customPath: Option<string>,
                         makedirs: string -> bool): (r: DirResult)
    ensures r.DirCreated? ==> r.dir == SaveDir(saveRoot, keyword, customPath) && r.dir != [] && makedirs(r.dir)
    ensures r.DirFailed? ==> r.error.dir == SaveDir(saveRoot, keyword, customPath)
    ensures r.DirFailed? <==> SaveDir(saveRoot, keyword, customPath) == [] || !makedirs(SaveDir(saveRoot, keyword, customPath))
  {
    var dir := SaveDir(saveRoot, keyword, customPath);
    if dir != [] && makedirs(dir) then DirCreated(dir) else DirFailed(MakeDirsFailed(dir))
  }

  /** Example: the keyword `a/b:c` becomes the folder `a_b_c` under the root. */
  lemma SanitizeExample(saveRoot: string)
    ensures LastSegment(SaveDir(saveRoot, "a/b:c", None)) == "a_b_c"
  {
    assert Sanitize("a/b:c") == "a_b_c";
    SaveDirSpec(saveRoot, "a/b:c", None);
  }

  /** A custom path consisting only of double quotes strips to the empty
      path, on which `os.makedirs` raises, so the crawl cannot start. */
  lemma AllQuotesPathFails(saveRoot: string, keyword: string, makedirs: string -> bool)
    ensures CreateSaveDir(saveRoot, keyword, Some("\"\""), makedirs).DirFailed?
  {
    assert StripQuotes("\"\"") == [];
  }
}

=== FILE: scenarios.dfy ===
/** Whole-crawl consequences of the model: a crawl of five `cats` images
    over two pages, and the crawl that stops when the second page is absent. */
module CrawlScenarios {
  import opened Wrappers
  import opened Strings
  import opened Paths
  import opened Extraction
  import opened Downloads
  import opened Crawler

  /** A URL with the `http` prefix whose first request answers 200 into a
      writable file is downloaded with one request. */
  lemma FirstRequestSucceeds(url: string, path: string, body: seq<Byte>,
                             fetch: (string, nat) -> FetchOutcome, writable: (string, nat) -> bool)
    requires StartsWith(url, HttpPrefix)
    requires fetch(url, 0) == Status(StatusOk, body) && writable(path, 0)
    ensures DownloadImage(url, path, DefaultRetry, fetch, writable) == Download(true, 1, Some(body))
  {
  }

  /** When every request answers 200 with `body` and every file can be
      written, the candidate loop saves candidates until the page or the
      target runs out, one request each. */
  lemma {:induction false} CandidatesAllSucceed(job: Job, env: Env, body: seq<Byte>, urls: seq<string>, st: State)
    requires forall u, n :: env.fetch(u, n) == Status(StatusOk, body)
    requires forall p, n :: env.writable(p, n)
    requires forall u :: u in urls ==> StartsWith(u, HttpPrefix)
    ensures var r := Candidates(job, env, urls, st);
      r.total == (if st.total >= job.maxCount then st.total
                  else if st.total + |urls| <= job.maxCount then st.total + |urls|
                  else job.maxCount)
    ensures Candidates(job, env, urls, st).offsets == st.offsets
    decreases |urls|
  {
    if urls != [] && st.total < job.maxCount {
      var path := FilePath(job.saveDir, job.keyword, st.total + 1);
      assert urls[0] in urls;
      var base := Requests(st.attempts);
      FirstRequestSucceeds(urls[0], path, body, FetchFrom(env, base), WritableFrom(env, base));
      assert forall u :: u in urls[1..] ==> u in urls;
      CandidatesAllSucceed(job, env, body, urls[1..], Step(job, env, st, urls[0]));
    }
  }

  /** A call whose four requests all raise answers `False` after four
      requests. */
  lemma ExhaustedCall(env: Env, st: State, u: string, path: string)
    requires StartsWith(u, HttpPrefix)
    requires forall n: nat :: n < Requests(st.attempts) + 4 ==> env.fetch(u, n).Raised?
    ensures DownloadCall(env, st.attempts, u, path) == Download(false, 4, None)
  {
    var base := Requests(st.attempts);
    var fetch0, writable0 := FetchFrom(env, base), WritableFrom(env, base);
    assert forall k :: 0 <= k <= DefaultRetry ==> RaisesAt(u, path, k, fetch0, writable0) by {
      forall k | 0 <= k <= DefaultRetry
        ensures fetch0(u, k).Raised?
      {
        assert fetch0(u, k) == env.fetch(u, base + k);
      }
    }
    AlwaysRaisingUsesBudget(u, path, DefaultRetry, 0, fetch0, writable0);
  }

  /** A call whose first request answers 200 into a writable file succeeds
      at once. */
  lemma ImmediateCall(env: Env, st: State, u: string, path: string, body: seq<Byte>)
    requires StartsWith(u, HttpPrefix)
    requires env.fetch(u, Requests(st.attempts)) == Status(StatusOk, body)
    requires env.writable(path, Requests(st.attempts))
    ensures DownloadCall(env, st.attempts, u, path) == Download(true, 1, Some(body))
  {
    var base := Requests(st.attempts);
    var fetch1, writable1 := FetchFrom(env, base), WritableFrom(env, base);
    assert fetch1(u, 0) == Status(StatusOk, body) && writable1(path, 0);
    FirstRequestSucceeds(u, path, body, fetch1, writable1);
  }

  /** The candidate loop below the target takes the first candidate, then
      the rest. */
  lemma CandidatesCons(job: Job, env: Env, u: string, rest: seq<string>, st: State)
    requires st.total < job.maxCount
    ensures Candidates(job, env, [u] + rest, st) == Candidates(job, env, rest, Step(job, env, st, u))
  {
    assert ([u] + rest)[1..] == rest;
  }

  /** The same URL listed twice on a page: when the four requests of the
      first call all raise and the requests after them answer 200, the
      first call answers `False` and the second saves the image. */
  lemma RepeatedUrlCanSucceed(job: Job, env: Env, u: string, body: seq<Byte>)
    requires StartsWith(u, HttpPrefix)
    requires job.maxCount > 0
    requires forall n: nat :: n < 4 ==> env.fetch(u, n).Raised?
    requires env.fetch(u, 4) == Status(StatusOk, body)
    requires forall p, n :: env.writable(p, n)
    ensures Candidates(job, env, [u, u], Start).total == 1
    ensures |Candidates(job, env, [u, u], Start).attempts| == 2
  {
    var path := FilePath(job.saveDir, job.keyword, 1);
    ExhaustedCall(env, Start, u, path);
    var d := DownloadCall(env, [], u, path);
    var s1 := Step(job, env, Start, u);
    assert s1 == Start.(attempts := [Attempt(u, path, d)]);
    RequestsAppend([], Attempt(u, path, d));
    ImmediateCall(env, s1, u, path, body);
    CandidatesCons(job, env, u, [u], Start);
    CandidatesCons(job, env, u, [], s1);
    assert [u] + [u] == [u, u] && [u] + [] == [u];
  }

  /** A result page built from `http` URLs without quotes yields exactly
      those URLs as candidates. */
  lemma CandidatesOfPage(job: Job, env: Env, offset: nat, urls: seq<string>)
    requires forall u :: u in urls ==> StartsWith(u, HttpPrefix) && Quote !in u
    requires env.page(PageUrl(job.keyword, offset)) == Some(Page(urls))
    ensures ExtractImageUrls(env.page(PageUrl(job.keyword, offset))) == urls
  {
    ExtractFromPage(urls);
    HttpOnlyKeepsAll(urls);
  }

  /** Target 5, two pages of three valid candidates, every download
      succeeds: three images come from the first page and two from the
      second, where the loop stops mid-page; offsets 0 and 20 are requested. */
  lemma TwoPagesOfThree(job: Job, env: Env, body: seq<Byte>, first: seq<string>, second: seq<string>)
    requires job.maxCount == 5 && |first| == 3 && |second| == 3
    requires forall u :: u in first ==> StartsWith(u, HttpPrefix) && Quote !in u
    requires forall u :: u in second ==> StartsWith(u, HttpPrefix) && Quote !in u
    requires env.page(PageUrl(job.keyword, 0)) == Some(Page(first))
    requires env.page(PageUrl(job.keyword, PageStep)) == Some(Page(second))
    requires forall u, n :: env.fetch(u, n) == Status(StatusOk, body)
    requires forall p, n :: env.writable(p, n)
    ensures Pages(job, env, 0, Start).total == 5
    ensures Pages(job, env, 0, Start).offsets == [0, PageStep]
  {
    CandidatesOfPage(job, env, 0, first);
    CandidatesOfPage(job, env, PageStep, second);
    // first page: all three saved
    PagesUnfold(job, env, 0, Start);
    var s0 := Start.(offsets := [0]);
    assert Start.(offsets := Start.offsets + [0]) == s0;
    CandidatesAllSucceed(job, env, body, first, s0);
    var v1 := Visit(job, env, 0, Start);
    assert v1 == Candidates(job, env, first, s0);
    // second page: two saved, then the target stops the loop
    PagesUnfold(job, env, PageStep, v1);
    var s1 := v1.(offsets := [0, PageStep]);
    assert v1.(offsets := v1.offsets + [PageStep]) == s1;
    CandidatesAllSucceed(job, env, body, second, s1);
    var v2 := Visit(job, env, PageStep, v1);
    assert v2 == Candidates(job, env, second, s1);
    assert Pages(job, env, 2 * PageStep, v2) == v2;
  }

  /** An example crawl: keyword `cats`, target 5, no custom
      path. The images go to `cats` under the save root; the crawl ends with
      5 images after requesting offsets 0 and 20. */
  lemma FiveCats(saveRoot: string, first: seq<string>, second: seq<string>, body: seq<Byte>, env: Env)
    requires |first| == 3 && |second| == 3
    requires forall u :: u in first ==> StartsWith(u, HttpPrefix) && Quote !in u
    requires forall u :: u in second ==> StartsWith(u, HttpPrefix) && Quote !in u
    requires env.page(PageUrl("cats", 0)) == Some(Page(first))
    requires env.page(PageUrl("cats", 20)) == Some(Page(second))
    requires forall u, n :: env.fetch(u, n) == Status(StatusOk, body)
    requires forall p, n :: env.writable(p, n)
    requires env.makedirs(Join(saveRoot, "cats"))
    ensures var r := CrawlImages(saveRoot, "cats", 5, None, env);
      r.Crawled? && r.total == 5 && r.offsets == [0, 20] && r.saveDir == Join(saveRoot, "cats")
  {
    var dir := Join(saveRoot, "cats");
    CatsFolder(saveRoot, env.makedirs);
    TwoPagesOfThree(Job("cats", 5, dir), env, body, first, second);
  }

  /** Without a custom path, the keyword `cats` gets the folder `cats` under
      the save root. */
  lemma CatsFolder(saveRoot: string, makedirs: string -> bool)
    requires makedirs(Join(saveRoot, "cats"))
    ensures CreateSaveDir(saveRoot, "cats", None, makedirs) == DirCreated(Join(saveRoot, "cats"))
  {
    assert Sanitize("cats") == "cats";
    var dir := Join(saveRoot, "cats");
    assert dir != [] by {
      assert |dir| >= |"cats"|;
    }
  }

  /** When the second page is absent the crawl ends with
      what the first page brought, having requested at most two pages. */
  lemma AbsentSecondPage(job: Job, env: Env)
    requires job.maxCount > 0
    requires !Truthy(env.page(PageUrl(job.keyword, PageStep)))
    ensures Pages(job, env, 0, Start).total == Visit(job, env, 0, Start).total
    ensures |Pages(job, env, 0, Start).offsets| <= 2
  {
    PagesUnfold(job, env, 0, Start);
    var v1 := Visit(job, env, 0, Start);
    VisitExtends(job, env, 0, Start);
    if !LastPage(job, env, 0) && v1.total < job.maxCount {
      PagesUnfold(job, env, PageStep, v1);
      assert ExtractImageUrls(env.page(PageUrl(job.keyword, PageStep))) == [];
      assert LastPage(job, env, PageStep);
      VisitExtends(job, env, PageStep, v1);
      assert Visit(job, env, PageStep, v1).total == v1.total;
    }
  }

  /** A crawl with a positive target whose first page holds candidates
      makes at least one download call: it cannot request its pages and
      leave their candidates untried. Only the whole-crawl contract is used. */
  lemma FirstPageIsTried(saveRoot: string, keyword: string, maxCount: int,
                         customPath: Option<string>, env: Env)
    requires maxCount > 0
    requires CreateSaveDir(saveRoot, keyword, customPath, env.makedirs).DirCreated?
    requires ExtractImageUrls(env.page(PageUrl(keyword, 0))) != []
    ensures CrawlImages(saveRoot, keyword, maxCount, customPath, env).Crawled?
    ensures CrawlImages(saveRoot, keyword, maxCount, customPath, env).attempts != []
  {
    CrawlImagesSpec(saveRoot, keyword, maxCount, customPath, env);
    var r := CrawlImages(saveRoot, keyword, maxCount, customPath, env);
    var job := Job(keyword, maxCount, r.saveDir);
    if r.total < maxCount {
      assert r.offsets != [] && r.offsets[0] == 0;
      AllCandidatesPrefix(job, env, r.offsets, 1);
      assert r.offsets[..1][..0] == [];
      assert AllCandidates(job, env, r.offsets[..1]) == PageCandidates(job, env, 0);
      assert |Urls(r.attempts)| > 0;
    }
  }
}

=== FILE: strings.dfy ===
/** Text helpers shared by the crawl engine: Python-style truthiness and
    prefix tests, subsequences, decimal formatting of
    non-negative integers, and the last component of a slash-separated path. */
module Strings {
  import opened Wrappers

  /** The double quote character. */
  const Quote: char := '"'

  /** The prefix every image URL must carry, checked with `startswith`: a plain
      prefix test, not a scheme check, so `httpfoo` passes. */
  const HttpPrefix: string := "http"

  /** Python's `str.startswith(p)`. */
  predicate StartsWith(s: string, p: string)
  {
    |p| <= |s| && s[..|p|] == p
  }

  /** Python truthiness of a value that is either `None` or a string:
      `None` and `""` are false, every other string is true. */
  predicate Truthy(s: Option<string>)
  {
    s.Some? && s.value != []
  }

  /** `t` occurs in `s` starting at index `i`. */
  predicate OccursAt(s: string, t: string, i: nat)
  {
    i + |t| <= |s| && s[i..i + |t|] == t
  }

  /** `t` occurs somewhere in `s`. */
  ghost predicate Contains(s: string, t: string)
  {
    exists i: nat :: OccursAt(s, t, i)
  }

  /** An occurrence inside a suffix is an occurrence in the whole string. */
  lemma ContainsInSuffix(s: string, d: nat, t: string)
    requires d <= |s|
    requires Contains(s[d..], t)
    ensures Contains(s, t)
  {
    var i: nat :| OccursAt(s[d..], t, i);
    assert s[d..][i..i + |t|] == s[d + i..d + i + |t|];
    assert OccursAt(s, t, d + i);
  }

  /** `a` can be obtained from `b` by deleting elements, keeping the order. */
  predicate IsSubsequence<T(==)>(a: seq<T>, b: seq<T>)
    decreases |b|
  {
    if a == [] then true
    else if b == [] then false
    else (a[0] == b[0] && IsSubsequence(a[1..], b[1..])) || IsSubsequence(a, b[1..])
  }

  /** True for the ten ASCII decimal digits. */
  predicate IsDigit(c: char)
  {
    '0' <= c <= '9'
  }

  /** The digit character for `d`. */
  function DigitChar(d: nat): (c: char)
    requires d < 10
    ensures IsDigit(c)
  {
    "0123456789"[d]
  }

  /** The value of a digit character. */
  function DigitValue(c: char): (d: nat)
    requires IsDigit(c)
    ensures d < 10
  {
    c as int - '0' as int
  }

  /** Python's `str(n)` for a non-negative integer: its decimal digits,
      without leading zeros. */
  function NatToString(n: nat): (r: string)
    ensures r != []
    ensures forall i :: 0 <= i < |r| ==> IsDigit(r[i])
    ensures |r| > 1 ==> r[0] != '0'
    decreases n
  {
    if n < 10 then [DigitChar(n)] else NatToString(n / 10) + [DigitChar(n % 10)]
  }

  /** The value of a string of decimal digits. */
  function ParseNat(s: string): nat
    requires forall i :: 0 <= i < |s| ==> IsDigit(s[i])
    decreases |s|
  {
    if s == [] then 0 else ParseNat(s[..|s| - 1]) * 10 + DigitValue(s[|s| - 1])
  }

  /** Reading back a formatted number gives the number. */
  lemma {:induction false} ParseNatToString(n: nat)
    ensures ParseNat(NatToString(n)) == n
    decreases n
  {
    var r := NatToString(n);
    if n < 10 {
      assert r[..|r| - 1] == [];
    } else {
      assert r[..|r| - 1] == NatToString(n / 10);
      ParseNatToString(n / 10);
    }
  }

  /** Different numbers are formatted differently. */
  lemma NatToStringInjective(a: nat, b: nat)
    requires NatToString(a) == NatToString(b)
    ensures a == b
  {
    ParseNatToString(a);
    ParseNatToString(b);
  }

  /** The last component of a `/`-separated path: everything after the
      last `/`, or the whole string when it holds none. */
  function LastSegment(s: string): (r: string)
    ensures '/' !in r
    ensures |r| <= |s| && s[|s| - |r|..] == r
    decreases |s|
  {
    if s == [] || s[|s| - 1] == '/' then []
    else LastSegment(s[..|s| - 1]) + [s[|s| - 1]]
  }

  /** A character other than `/` extends the last component. */
  lemma {:induction false} LastSegmentSnoc(s: string, c: char)
    requires c != '/'
    ensures LastSegment(s + [c]) == LastSegment(s) + [c]
  {
    assert (s + [c])[..|s|] == s;
  }

  /** Appending a `/`-free tail right after a `/` (or at the start)
      makes that tail the last component. */
  lemma {:induction false} LastSegmentAfterSlash(p: string, b: string)
    requires p == [] || p[|p| - 1] == '/'
    requires '/' !in b
    ensures LastSegment(p + b) == b
    decreases |b|
  {
    if b == [] {
      assert p + b == p;
    } else {
      var b' := b[..|b| - 1];
      var last := b[|b| - 1];
      assert last in b;
      assert '/' !in b' by {
        forall c | c in b' ensures c in b {
          var k :| 0 <= k < |b'| && b'[k] == c;
          assert b[k] == c;
        }
      }
      LastSegmentAfterSlash(p, b');
      assert p + b == (p + b') + [last] by {
        assert b == b' + [last];
      }
      LastSegmentSnoc(p + b', last);
      assert b' + [last] == b;
    }
  }
}

=== FILE: wrappers.dfy ===
/** Optional values, standing for Python's `None` or a present value. */
module Wrappers {

  /** `None`, or a present value. */
  datatype Option<+T> = None | Some(value: T)
}
